=== FILE: README.md ===
# RV park administration front end — a Dafny model

This project models the client-side logic of a React front end for
running RV parks: parks, spots, clients, rentals, payments and events. The
modelled core is:

- the client-side pagination hook and the pagination widget;
- the string formatters;
- the validators, payloads, search filters and statistics of the pages
  for clients, payments, RV parks, rentals, the dashboard and events;
- the authentication context.

Every operation is a pure function over immutable datatypes, except two
loops: the page-number window and the spot-code generator. Each is a
method whose loop is proved against a functional definition.

Modelling conventions:

- **Missing values.** JavaScript's `null`/`undefined` is `Option.None`.
  Falsy text is the empty string.
- **Amounts.** Amounts are integer cents.
- **Dates.** A date is the instant `new Date` reads. It is `None` when it
  is an `Invalid Date`. A listed event's dates keep `null` apart: `new
  Date(null)` is the epoch, while `undefined` or unreadable text is an
  `Invalid Date`.
- **Number boxes.** The RV-park quantity box holds the text the number
  input reports, which is blank or a valid floating-point number as the
  HTML standard defines it.
- **Services.** A service call's answer arrives as a `Result` parameter.
- **Files.** There is one module per source file:

  | file | module |
  |---|---|
  | `common.dfy` | `Option`, `Result`, an order-preserving `Filter` and counting |
  | `text.dfy` | lower/upper case, `includes`, `trim`, `split`, string order |
  | `pagination.dfy` | the pagination hook |
  | `pagination_controls.dfy` | the pagination widget |
  | `format_utils.dfy` | the string formatters |
  | `clientes.dfy` | the clients page |
  | `pagos.dfy` | the payments page |
  | `rv_parks.dfy` | the RV parks page |
  | `rentas.dfy` | the rentals page |
  | `dashboard.dfy` | the dashboard |
  | `eventos.dfy` | the events page |
  | `auth.dfy` | the authentication context |

## Model

| member | source | states |
|---|---|---|
| Pagination.Initial | src/hooks/usePagination.js:10-12 | a list starts on page 1 with the given page size |
| Pagination.TotalPages | src/hooks/usePagination.js:22-23 | at least one page; one page for an empty list; otherwise the fewest pages of the given size that hold all items |
| Pagination.PageItems | src/hooks/usePagination.js:15-19 | the page holds at most a page size of items; it is exactly the items from the page's offset on, in order; it is empty past the end of the list |
| Pagination.PageIsSlice | src/hooks/usePagination.js:15-19 | page k is exactly the items between (k−1)·size and k·size, cut at the end of the list |
| Pagination.Derive | src/hooks/usePagination.js:14-71 | the hook's return value: the page's items are the list's items from `startIndex` on, in order; the totals and bounds are those of the page state; next exists iff the current page is below the total, previous iff above 1; an empty list shows 0 to 0 |
| Pagination.DisplayBounds | src/hooks/usePagination.js:24-25 | for a page the list has, "start to end" are the 1-based positions of exactly the items shown |
| Pagination.BoundsTile | src/hooks/usePagination.js:24-25 | consecutive pages tile 1..n with no gap or overlap, and the last page ends at n |
| Pagination.PagesUpToIsPrefix | src/hooks/usePagination.js:15-19 | the first k pages laid end to end are the first k·size items |
| Pagination.PagesReassemble | src/hooks/usePagination.js:15-23 | paging through all pages reproduces the list exactly |
| Pagination.PageNonEmpty | src/hooks/usePagination.js:15-23 | a page the list has is never blank unless the list is empty |
| Pagination.GoToPage | src/hooks/usePagination.js:28-31 | the requested page clamped into 1..totalPages; in-range requests are honoured exactly |
| Pagination.GoToPageIdempotent | src/hooks/usePagination.js:28-31 | asking for the same page again changes nothing |
| Pagination.NextPage | src/hooks/usePagination.js:33-37 | one page on when there is a next page, otherwise no change |
| Pagination.PrevPage | src/hooks/usePagination.js:39-43 | one page back when there is a previous page, otherwise no change |
| Pagination.StepsStayInRange | src/hooks/usePagination.js:33-43 | steps keep a settled state settled, and next and previous undo each other |
| Pagination.ChangePageSize | src/hooks/usePagination.js:45-48 | the new size, back on page 1, which every list has |
| Pagination.PageSizeOptionsPositive | src/utils/constants.js:78-81 | every offered page size is positive, and the default size is among them |
| Pagination.ShrinkReset | src/hooks/usePagination.js:51-55 | a page past the end jumps back to page 1 (not to the last page); otherwise the state is kept |
| Pagination.ShrinkGuardRedundant | src/hooks/usePagination.js:51-55 | the effect's `totalPages > 0` test is always true |
| Pagination.ReplaceListSettles | src/hooks/usePagination.js:51-55 | after a list change the page shown is one the new list has, and a list that did not shrink keeps the page |
| PaginationControls.Window | src/components/Pagination.jsx:33-57 | all pages when there are at most 5; otherwise exactly 5 consecutive pages within 1..totalPages that contain the current page, centred on it when there is room |
| PaginationControls.GetPageNumbers | src/components/Pagination.jsx:33-57 | the two counting loops produce the window, strictly increasing |
| PaginationControls.Render | src/components/Pagination.jsx:18-147 | the widget is absent iff `totalItems` is 0, so a missing count still draws it; otherwise it shows the window, and an arrow is enabled only by a flag that is `true` |
| PaginationControls.PageClick | src/components/Pagination.jsx:88-146 | a click calls `onPageChange`: `goToPage` clamps, the raw setter sets the page as asked, a missing callback throws |
| PaginationControls.SizeClick | src/components/Pagination.jsx:73-83 | the size selector calls `onPageSizeChange`: `changePageSize` or, when missing, a throw |
| PaginationControls.ButtonsMatchNavigation | src/components/Pagination.jsx:88-146 | with every prop passed, as on the clients, payments and rentals pages, a button is disabled iff its click would not move; enabled previous/next are the hook's steps; first/last reach page 1 and the last page; a page-number click shows that page; each offered size is `changePageSize` |
| PaginationControls.SummaryMatchesPage | src/components/Pagination.jsx:64-68 | with every prop passed, "Mostrando a..b de n" counts exactly the items on the page |
| PaginationControls.SpreadClicksThrow | src/pages/RvParks.jsx:282 | spreading the hook draws what the wired widget draws, but every page click and size choice throws |
| PaginationControls.RvParksNextThrows | src/pages/RvParks.jsx:282 | 21 parks at 20 per page: "next" is enabled, and its click throws |
| PaginationControls.EventosArrowsDisabled | src/pages/Eventos.jsx:310-314 | with only the page, the page count and the raw setter, all four arrows are disabled and the summary has no numbers; page-number clicks land; a size choice throws |
| PaginationControls.EventosPageTwoOfThree | src/pages/Eventos.jsx:310-314 | page 2 of 3 has a previous and a next page, yet every arrow is disabled where the wired widget enables all four |
| FormatUtils.FormatCurrency | src/utils/formatUtils.js:1-7 | a missing amount is `$0.00`; a present one goes to the locale formatter |
| FormatUtils.TruncateText | src/utils/formatUtils.js:14-18 | empty stays empty; a fitting text is kept; a longer one becomes its first maxLength characters plus `...` |
| FormatUtils.TruncateShape | src/utils/formatUtils.js:14-18 | the result is the text or a prefix plus `...`; a text one character too long grows by two |
| FormatUtils.CapitalizeFirst | src/utils/formatUtils.js:27-30 | same length; first character upper-cased, the rest lower-cased |
| FormatUtils.CapitalizeFirstIdempotent | src/utils/formatUtils.js:27-30 | capitalising twice is capitalising once, whatever case the text was typed in |
| FormatUtils.GetInitials | src/utils/formatUtils.js:20-25 | as written: empty for empty; a single word gives its first two characters upper-cased |
| FormatUtils.GetInitialsOfWords | src/utils/formatUtils.js:20-25 | for words separated by single spaces: the first letters of the first and last word, upper-cased |
| FormatUtils.GetInitialsTrailingSpace | src/utils/formatUtils.js:20-25 | as written, `"Ana "` gives `AUNDEFINED` |
| FormatUtils.GetInitialsOfName | src/utils/formatUtils.js:20-25 | corrected: at most two characters, none lower-case; the first letters of the first and last word, ignoring stray spaces |
| FormatUtils.GetInitialsOfNameTrailingSpace | src/utils/formatUtils.js:20-25 | corrected, `"Ana "` gives `AN` |
| FormatUtils.GetInitialsAgree | src/utils/formatUtils.js:20-25 | where every space-separated part is a word, the corrected and the original helper agree |
| Text.Trim | src/pages/Clientes.jsx:51 | `trim()`: a substring with no white space at either end; empty iff the text is all white space |
| Text.TrimIdempotent | src/pages/RvParks.jsx:88-93 | trimming twice is trimming once |
| Text.SplitJoin | src/utils/formatUtils.js:22 | `split(' ')` loses nothing: joining the parts gives the text back |
| Text.IncludesIgnoringCaseOfTerm | src/pages/Rentas.jsx:187-188 | a case-insensitive search does not depend on the case of the term |
| Clientes.Validate | src/pages/Clientes.jsx:47-85 | a field has an error exactly when its rule fails |
| Clientes.ValidateRules | src/pages/Clientes.jsx:50-81 | name needs 3 non-blank characters; email must match the pattern; phone is optional but must be 10–15 digits after stripping; username (4) and password (6) are checked only when creating |
| Clientes.FieldRule | src/pages/Clientes.jsx:50-81 | a field gets no message exactly when its own rule holds |
| Clientes.EmailPatternShape | src/pages/Clientes.jsx:56 | an accepted address has exactly one `@`, not at either end, and no white space |
| Clientes.EmailWithoutDotRejected | src/pages/Clientes.jsx:56 | `foo@bar` is rejected |
| Clientes.EmailWithDotAccepted | src/pages/Clientes.jsx:56 | `foo@bar.com` is accepted |
| Clientes.EmptyEmailRejected | src/pages/Clientes.jsx:57-58 | an empty email is an error |
| Clientes.CleanPhone | src/pages/Clientes.jsx:66 | the stripped phone holds no space, hyphen or parenthesis |
| Clientes.CleanPhoneKeepsDigits | src/pages/Clientes.jsx:66 | a bare-digit phone is unchanged by stripping |
| Clientes.PhoneTenDigitsAccepted | src/pages/Clientes.jsx:63-70 | ten digits pass |
| Clientes.PhoneThreeDigitsRejected | src/pages/Clientes.jsx:63-70 | three digits fail |
| Clientes.ValidIffRulesHold | src/pages/Clientes.jsx:83-84 | the form is valid iff every rule holds |
| Clientes.EditingSkipsCredentials | src/pages/Clientes.jsx:72-81 | editing reports the same errors as creating, minus the username and password errors |
| Clientes.EditPayload | src/pages/Clientes.jsx:98-101 | an update sends exactly the personal fields |
| Clientes.CreatePayload | src/pages/Clientes.jsx:103-109 | a creation sends every form field plus `rol: Cliente` |
| Clientes.Submit | src/pages/Clientes.jsx:87-111 | a request goes out iff there are no errors; it is an update of the client in edit, else a creation |
| Clientes.FilterClientes | src/pages/Clientes.jsx:161-165 | the kept clients are exactly those whose name, phone or email matches, in order |
| Clientes.EmptySearchKeeps | src/pages/Clientes.jsx:161-165 | an empty search keeps a client iff it has a name, a phone or an email |
| Clientes.SearchCaseOfTerm | src/pages/Clientes.jsx:161-165 | without a phone, the case of the term does not matter (the phone is matched case-sensitively) |
| Clientes.FilterClientesAppend | src/pages/Clientes.jsx:161-165 | filtering two lists together is filtering each and concatenating |
| Pagos.PayableRentas | src/pages/Pagos.jsx:61-63 | the offered rentals are exactly those neither cancelled nor paid |
| Pagos.Validate | src/pages/Pagos.jsx:71-102 | a field has an error exactly when its rule fails |
| Pagos.ValidateRules | src/pages/Pagos.jsx:74-98 | rental, date and method are required; the amount must be given and positive and, with a rental selected, at most its debt; an over-debt amount shows the balance message instead |
| Pagos.AmountBounds | src/pages/Pagos.jsx:82-94 | with a rental selected, 0 and anything above the debt are rejected, and 1..debt passes |
| Pagos.Submit | src/pages/Pagos.jsx:104-129 | a request goes out iff the form is valid; it carries the rental, date, amount and method; a blank reference is sent as null; it is an update of the payment in edit iff editing |
| Pagos.Find | src/pages/Pagos.jsx:166 | the found rental is the first with the id; none found means no rental has it |
| Pagos.HandleRentaChange | src/pages/Pagos.jsx:165-170 | selects the first rental with that id whenever one exists, pre-fills its total (blank when there is none or the total is 0), clears all errors, keeps the other fields |
| Pagos.RentaChangePrefill | src/pages/Pagos.jsx:165-170 | choosing a rental twice is choosing it once; the pre-filled total passes the amount rule iff nothing has been paid on the rental yet |
| Pagos.HandleSubmit | src/pages/Pagos.jsx:104-133 | an invalid form records its errors and stays; a valid one is sent |
| Pagos.StepConsistent | src/pages/Pagos.jsx:141-183 | every user event keeps this fact: a payment in edit never has a selected rental |
| Pagos.EditingSkipsBalance | src/pages/Pagos.jsx:86-94 | while editing, validation is the same as with no rental selected, so the balance is never checked |
| Pagos.Periodos | src/pages/Pagos.jsx:186 | the period list is strictly descending and holds exactly the non-empty periods |
| Pagos.InsertDescending | src/pages/Pagos.jsx:186 | inserting keeps the list strictly descending and adds exactly the new period |
| Pagos.DescendingDistinct | src/pages/Pagos.jsx:186 | hence no period appears twice |
| Pagos.FilterPagos | src/pages/Pagos.jsx:188-200 | the kept payments are exactly those passing the search (client name, the spot's `codigo` or the reference), rental and period filters together, in order |
| Pagos.ShownCodeNotFound | src/pages/Pagos.jsx:188-200 | a payment whose row shows spot A01 is dropped by the search "A01" |
| Pagos.FilterPagosByShownCode | src/pages/Pagos.jsx:334 | the corrected filter: the same three filters, searching the spot code the row shows |
| Pagos.ShownCodeFound | src/pages/Pagos.jsx:334 | the corrected filter finds a payment by the shown spot code, in any case; it agrees with the written search where `codigo` and `codigo_spot` agree |
| Pagos.ClearedFiltersKeepAll | src/pages/Pagos.jsx:188-200 | with all filters cleared the whole list is shown |
| Pagos.PeriodFilter | src/pages/Pagos.jsx:197 | a period filter alone keeps exactly that period's payments |
| RvParks.ParseInt | src/pages/RvParks.jsx:60 | the sign and the run of digits at the start of the text, which stops at the dot or the exponent; NaN when no digit follows the sign |
| RvParks.ParseIntTruncates | src/pages/RvParks.jsx:60 | without an exponent, the parsed number is the value truncated toward zero |
| RvParks.ParsedPositive | src/pages/RvParks.jsx:38-61 | a quantity parsed as positive also passes the effect's `> 0` test |
| RvParks.DigitsValueAppend | src/pages/RvParks.jsx:60 | digits written after others scale the others' value by a power of ten |
| RvParks.RenderParts | src/pages/RvParks.jsx:355 | the box's text is the sign and the integer digits, then the dot or the exponent |
| RvParks.ExponentReadAsLeadingDigits | src/pages/RvParks.jsx:38-98 | `1e3` is 1000, over the box's 500, yet the preview shows `A01`; `2e2` is 200, yet the preview shows two codes and the payload asks for two spots |
| RvParks.LetterAt | src/pages/RvParks.jsx:69 | the k-th letter, while k names one |
| RvParks.Pad2 | src/pages/RvParks.jsx:70 | two digits reading back as the number |
| RvParks.Codes | src/pages/RvParks.jsx:68-78 | the first count spot codes, position by position |
| RvParks.GenerateCodes | src/pages/RvParks.jsx:63-78 | the letter/number loop writes exactly those codes |
| RvParks.CodesStep | src/pages/RvParks.jsx:63-78 | one turn of the loop appends the code of the next position |
| RvParks.CodeRoundTrip | src/pages/RvParks.jsx:68-77 | every code up to Z99 parses back to its position |
| RvParks.CodesDistinct | src/pages/RvParks.jsx:68-77 | codes up to Z99 are all different |
| RvParks.CodesRepeatPastZ | src/pages/RvParks.jsx:69-77 | past Z99 the letter reads `undefined` and codes repeat |
| RvParks.GeneratePreview | src/pages/RvParks.jsx:59-81 | the preview is unchanged unless the quantity parses to 1..500; then it is the first min(quantity, 10) codes |
| RvParks.PreviewEffect | src/pages/RvParks.jsx:38-44 | with generation on and a positive quantity the preview is regenerated; otherwise it is emptied |
| RvParks.PreviewUsesFirstLetter | src/pages/RvParks.jsx:59-81 | the preview lists A01, A02, … and never reaches a second letter |
| RvParks.FractionKeepsStalePreview | src/pages/RvParks.jsx:38-61 | `0.5` and `.5` are positive and ask for a preview, but parse to 0 and to NaN and leave the old one on screen |
| RvParks.Payload | src/pages/RvParks.jsx:88-99 | the four text fields trimmed; the generation fields are present iff generation is on, with the parsed quantity |
| RvParks.Submit | src/pages/RvParks.jsx:101-105 | an update of the park in edit, else a creation |
| RvParks.EditForm | src/pages/RvParks.jsx:124-135 | editing starts with generation off and the default quantity |
| RvParks.EditRoundTrip | src/pages/RvParks.jsx:124-135 | saving an unchanged edit asks for no spots and sends fields that trimming no longer changes |
| RvParks.FilterRvParks | src/pages/RvParks.jsx:162-165 | the kept parks are exactly those whose name or address contains the term, ignoring case, in order |
| RvParks.EmptySearchNeedsNameOrAddress | src/pages/RvParks.jsx:162-165 | an empty search hides a park with neither name nor address |
| Rentas.FilterRentas | src/pages/Rentas.jsx:183-190 | the kept rentals are exactly those whose client name or spot `codigo` matches, in order |
| Common.ShownCode | src/pages/Rentas.jsx:300 | a row prints the spot's `codigo_spot`, or `-` when it is missing or empty |
| Rentas.ShownCodeNotFound | src/pages/Rentas.jsx:183-190 | a rental whose row shows spot A01 is dropped by the search "A01" |
| Rentas.FilterRentasByShownCode | src/pages/Rentas.jsx:300 | the corrected filter: client name or the shown spot code matches, in order |
| Rentas.ShownCodeFound | src/pages/Rentas.jsx:300 | the corrected filter finds a rental by the shown spot code, in any case; it agrees with the written search where `codigo` and `codigo_spot` agree |
| Rentas.EmptySearchKeepsAll | src/pages/Rentas.jsx:183-190 | an empty search keeps every rental (missing names count as empty) |
| Rentas.SearchIgnoresCase | src/pages/Rentas.jsx:187-188 | the case of the term does not matter |
| Rentas.ComputeStats | src/pages/Rentas.jsx:213-235 | the card counts; paid plus pending never exceed the total, nor do the active ones |
| Rentas.StatsAppend | src/pages/Rentas.jsx:213-235 | the cards of two lists add up |
| Rentas.StatsCoverKnownStatuses | src/pages/Rentas.jsx:218-229 | when every status is Pagado or Pendiente, paid plus pending equal the total |
| Rentas.StatusColor | src/pages/Rentas.jsx:195-197 | the status's colours, neutral for any other status |
| Rentas.StatusColorsDistinct | src/utils/constants.js:67-76 | the paid, pending and neutral badges differ; exactly the two known statuses get their own |
| Rentas.Actions | src/pages/Rentas.jsx:336-344 | "Finalizar" is offered iff the rental has no end date |
| Rentas.FinalizarMatchesActivas | src/pages/Rentas.jsx:230-234 | the rows offering "Finalizar" are exactly those counted as active |
| Rentas.CalcMonto | src/pages/Rentas.jsx:83-99 | no request without a start date; otherwise spot, start and end (null when blank) |
| Rentas.ChangePark | src/pages/Rentas.jsx:396-399 | the park becomes selected, the spot is cleared, nothing else changes, and spots are requested iff a park is chosen |
| Rentas.CalcAfterParkChange | src/pages/Rentas.jsx:83-99 | right after a park change, a calculation with a start date goes out with an empty spot; without one none goes out |
| Rentas.ChangeParkSettles | src/pages/Rentas.jsx:396-399 | choosing a park twice is choosing it once; the last choice wins |
| Dashboard.CalculateStats | src/pages/Dashboard.jsx:57-65 | the total and the number of spots in each state |
| Dashboard.StatsPartition | src/pages/Dashboard.jsx:57-65 | the four state counts add up to at most the total, and to exactly the total when every state is a known one |
| Dashboard.UnknownStateFallsShort | src/pages/Dashboard.jsx:57-65 | a spot in an unknown state is counted by no card |
| Dashboard.LoadSpots | src/pages/Dashboard.jsx:33-55 | success shows and caches the spots; failure shows the cache if any, otherwise keeps the page |
| Dashboard.LoadKeepsStatsInStep | src/pages/Dashboard.jsx:33-55 | the counters always describe the spots on screen |
| Dashboard.OfflineReplaysLastLoad | src/pages/Dashboard.jsx:33-55 | a failed load after a successful one shows the same spots again |
| Eventos.FindTipo | src/pages/Eventos.jsx:270 | the found option is the first with the type; none found means no option has it |
| Eventos.FindKnown | src/pages/Eventos.jsx:270 | the option values differ, so looking up an offered type finds that very option |
| Eventos.TipoLabel | src/pages/Eventos.jsx:270 | the type's label, or the raw type |
| Eventos.TipoLabels | src/pages/Eventos.jsx:35-40 | each known type shows its own label; unknown types show as they are |
| Eventos.TypeColor | src/pages/Eventos.jsx:42-50 | the type's classes, those of `otro` for any other type |
| Eventos.TypeColorsMatchOptions | src/pages/Eventos.jsx:35-50 | the coloured types are exactly the offered ones; the four colours differ |
| Eventos.Submit | src/pages/Eventos.jsx:83-110 | refused iff both dates are readable and the end is not after the start; otherwise sent, as an update iff editing |
| Eventos.SentDatesOrdered | src/pages/Eventos.jsx:89-93 | what the handler sends ends after it starts, unless a date could not be read, which the handler's check lets through |
| Eventos.Instant | src/pages/Eventos.jsx:115-117 | `null` reads as instant 0, readable text as its instant, anything else as no instant |
| Eventos.EditForm | src/pages/Eventos.jsx:112-130 | an event loads into the form iff neither date is unreadable; a `null` date loads as the epoch; a missing type becomes `otro`; one with an unreadable date throws |
| Eventos.EditedNullEndRefused | src/pages/Eventos.jsx:89-130 | an event whose end was `null` loads with the epoch as its end and is then refused by the date check |
| Eventos.EditKeepsTypeColor | src/pages/Eventos.jsx:127 | loading an event keeps its badge colour |
| Eventos.HandleFilterChange | src/pages/Eventos.jsx:157-162 | only the named filter changes |
| Eventos.ClearFilters | src/pages/Eventos.jsx:164-169 | both filters become empty |
| Eventos.FilterChangesCommute | src/pages/Eventos.jsx:157-169 | filter changes commute and can be undone; clearing is setting both to empty |
| Auth.Init | src/contexts/AuthContext.jsx:10-14 | the persisted user is signed in and loading ends |
| Auth.Login | src/contexts/AuthContext.jsx:16-20 | a successful login signs in the returned user; a failed one changes nothing |
| Auth.Logout | src/contexts/AuthContext.jsx:22-25 | nobody is signed in afterwards |
| Auth.HasAnyRoleIsSomeRole | src/contexts/AuthContext.jsx:27-33 | `hasAnyRole` is `hasRole` for some listed role; a one-role list is `hasRole`; an empty list never matches |
| Auth.HasAnyRoleMonotone | src/contexts/AuthContext.jsx:31-33 | listing more roles never locks anyone out |
| Auth.RolesNeedSignIn | src/contexts/AuthContext.jsx:27-40 | a role implies being signed in; a user has at most one role; after logout every check fails |
| Auth.InitDecidesRoles | src/contexts/AuthContext.jsx:10-14 | after start-up the user is signed in iff one was persisted, the role checks follow that user's role, and the earlier session does not matter |
| Auth.LoginDecidesRoles | src/contexts/AuthContext.jsx:16-29 | after a successful login the role checks answer by the returned user's role; a failed login changes no answer |

## Left out

- The forms' HTML constraint attributes are not modelled: `required` on
  the event dates, `min`/`max` on the spot quantity, `min="0.01"` on the
  payment amount, and `required`, `minLength` and `type="email"` on the
  client form. The submit handlers are modelled for every input. In the
  page the browser refuses some of those inputs before the handler runs:
  a blank event date, or a quantity over 500 such as `1e3`.
- Backend services, the network, `localStorage`, toasts, `window.confirm`,
  loading flags and the ordering of asynchronous calls. Service answers
  are parameters; a failed save or load is not modelled except on the
  dashboard.
- The rental amount calculation is done by the backend. Only the guard in
  front of the request is modelled.
- The date helpers, the export helpers, `formatPercent` and the
  `Intl.NumberFormat` branch of `formatCurrency`. These are library
  formatting; `formatCurrency` takes the formatter as a parameter.
- Case mapping is ASCII-only (`Text.LowerChar`, `Text.UpperChar`).
  JavaScript also maps accented and other non-ASCII letters.
- `Text.Before` orders strings by code point. JavaScript's `sort()`
  compares UTF-16 code units, which differs only outside the Basic
  Multilingual Plane.
- Amounts are integer cents. `parseFloat` of text that is not a number
  (`NaN`, which passes the `<= 0` test) is not modelled: the amount box is
  a number input.
- Pagination.ChangePageSize: it requires a positive size. The widget only
  offers 10, 20, 50 and 100, and a zero or negative size (which would
  divide by zero) is not modelled.
- PaginationControls.ButtonsMatchNavigation: it holds for the props the
  clients, payments and rentals pages pass. The RV parks and events pages
  pass fewer props; what their widgets do is stated under "## Findings".
- A thrown TypeError is modelled as the outcome `Threw`; what React does
  with the uncaught error is not modelled.
- `Math.ceil` of a floating-point quotient is modelled as exact integer
  ceiling division.
- Colour lookups on inherited object keys such as `"constructor"` are not
  modelled. In JavaScript these find a prototype member instead of falling
  back.
- The RV-park quantity's `> 0` test reads the text's sign and digits. The
  floating-point conversion behind it is not modelled: a tiny value such
  as `1e-400` converts to 0 in JavaScript but counts as positive here.
- RvParks.ParseInt: digit runs longer than a double holds exactly (beyond
  2^53) are read exactly, where JavaScript rounds them.
- Spot-code generation by the backend is not modelled; the preview only
  ever shows the first ten codes.
- Payment totals (`totalMonto`, `totalPagosMes`) are not modelled. They
  are floating-point sums and comparisons against the current clock.
- The events page reloads on every filter change. That is a service call.
- The rentals page's submit, edit, finalize and delete handlers are not
  modelled. They pass the form or the id straight to the service.
- The clients page's edit and reset handlers are not modelled. They only
  copy fields.
- `useAuth` throwing outside its provider is not modelled.
- The spots, reports, login and layout pages are not part of this model.
- FormatUtils.GetInitials: its own contract covers only the empty name and
  the single-word name. The several-word case is stated by
  `FormatUtils.GetInitialsOfWords` and
  `FormatUtils.GetInitialsTrailingSpace`. Its `[0]` and `substring(0, 2)`
  take characters, where JavaScript takes UTF-16 code units.
- Strings are sequences of characters (code points). JavaScript's
  `.length`, indexing and `substring` count UTF-16 code units, so a
  character outside the Basic Multilingual Plane, such as an emoji,
  counts once here and twice there. The members below inherit this.
- FormatUtils.TruncateText: lengths count characters, not UTF-16 code
  units. `truncateText("😀😀", 2)` gives `"😀..."` in JavaScript and the
  text unchanged here.
- Clientes.ValidateRules: the name, user-name and password length tests
  count characters, not UTF-16 code units. The name `"😀😀"` passes
  `trim().length >= 3` in JavaScript and fails here.

## Findings

| source | as written | input that shows it | evidently intended | confidence | as-written member | corrected member |
|---|---|---|---|---|---|---|
| src/pages/RvParks.jsx:282 | spreads the hook into the widget; the hook names its callbacks `goToPage` and `changePageSize`, so `onPageChange` and `onPageSizeChange` are undefined | 21 parks at 20 per page: "next" is enabled and its click calls `undefined` | pass `onPageChange={goToPage}` and `onPageSizeChange={changePageSize}` as the clients page does | not executed | PaginationControls.RvParksNextThrows | PaginationControls.ButtonsMatchNavigation |
| src/pages/Eventos.jsx:310-314 | passes only the page, the page count and the raw `setCurrentPage` | 41 events at 20 per page on page 2: all four arrows are disabled and the summary reads "Mostrando  a  de  registros" | pass every prop as the clients page does | not executed | PaginationControls.EventosPageTwoOfThree | PaginationControls.ButtonsMatchNavigation |
| src/pages/Rentas.jsx:183-190 | searches the spot's `codigo`, while the row shows `codigo_spot` and spots from the backend carry `codigo_spot` | a rental for Ana on spot A01, searched for "A01", is dropped | search the shown code, as the placeholder "Buscar por cliente o código de spot" promises | plausible, not executed | Rentas.ShownCodeNotFound | Rentas.ShownCodeFound |
| src/pages/Pagos.jsx:188-200 | searches the rental's spot `codigo`, while the row shows `codigo_spot` | a payment by Ana for spot A01, searched for "A01", is dropped | search the shown code | plausible, not executed | Pagos.ShownCodeNotFound | Pagos.ShownCodeFound |
| src/utils/formatUtils.js:20-25 | splits on single spaces and takes `parts[k][0]` of the first and last part, so an empty part yields the text `undefined` | `"Ana "` gives `AUNDEFINED` | the first letters of the first and last word, ignoring stray spaces: `AN` | not executed | FormatUtils.GetInitialsTrailingSpace | FormatUtils.GetInitialsOfNameTrailingSpace |

=== FILE: auth.dfy ===
/** The authentication context (`contexts/AuthContext.jsx`): the signed-in
    user, the start-up flag, and the role checks the pages use. The
    persisted session and the login call belong to the auth service and
    arrive here as values. */
module Auth {
  import opened Common

  /** A signed-in user; the role may be missing from what the backend
      sent. */
  datatype User = User(nombreUsuario: string, rol: Option<string>)

  /** The context's state. */
  datatype Session = Session(user: Option<User>, loading: bool)

  /** Before the start-up effect has run: nobody signed in, still loading. */
  const Initial := Session(None, true)

  /** The start-up effect: the session becomes the persisted user (`None`
      when nothing valid was stored) and loading ends. */
  function Init(s: Session, persisted: Option<User>): (r: Session)
    ensures r.user == persisted && !r.loading
  {
    Session(persisted, false)
  }

  /** `login(nombre_usuario, password)` once the service has answered: the
      returned user is signed in; a rejected login leaves the session as it
      was (the error goes to the caller). */
  function Login(s: Session, response: Result<User>): (r: Session)
    ensures response.Ok? ==> r.user == Some(response.value)
    ensures response.Err? ==> r == s
    ensures r.loading == s.loading
  {
    match response
    case Ok(u) => s.(user := Some(u))
    case Err(_) => s
  }

  /** `logout()`. */
  function Logout(s: Session): (r: Session)
    ensures r.user.None? && r.loading == s.loading
  {
    s.(user := None)
  }

  /** `isAuthenticated`: a user object is always truthy. */
  predicate IsAuthenticated(s: Session) {
    s.user.Some?
  }

  /** `hasRole(role)`: the user's role is that role; with nobody signed in,
      or no role, `undefined` equals no role. */
  predicate HasRole(s: Session, role: string) {
    s.user.Some? && s.user.value.rol == Some(role)
  }

  /** `hasAnyRole(roles)`: the list holds the user's role. The roles asked
      about are always text, so a missing role is in none of them. */
  predicate HasAnyRole(s: Session, roles: seq<string>) {
    s.user.Some? && s.user.value.rol.Some? && s.user.value.rol.value in roles
  }

  /** `hasAnyRole` is `hasRole` for some role of the list; a one-role list
      is `hasRole`, and an empty list never matches. */
  lemma HasAnyRoleIsSomeRole(s: Session, roles: seq<string>, role: string)
    ensures HasAnyRole(s, roles) <==> exists i :: 0 <= i < |roles| && HasRole(s, roles[i])
    ensures HasAnyRole(s, [role]) <==> HasRole(s, role)
    ensures !HasAnyRole(s, [])
  {
    if HasAnyRole(s, roles) {
      var i :| 0 <= i < |roles| && roles[i] == s.user.value.rol.value;
      assert HasRole(s, roles[i]);
    }
  }

  /** Adding roles to the list can only let more users through. */
  lemma HasAnyRoleMonotone(s: Session, roles: seq<string>, more: seq<string>)
    ensures HasAnyRole(s, roles) ==> HasAnyRole(s, roles + more) && HasAnyRole(s, more + roles)
  {
    if HasAnyRole(s, roles) {
      var i :| 0 <= i < |roles| && roles[i] == s.user.value.rol.value;
      assert (roles + more)[i] == roles[i];
      assert (more + roles)[|more| + i] == roles[i];
    }
  }

  /** A role check implies being signed in, a user holds at most one role,
      and after a logout every check fails. */
  lemma RolesNeedSignIn(s: Session, a: string, b: string, roles: seq<string>)
    ensures HasRole(s, a) ==> IsAuthenticated(s)
    ensures HasAnyRole(s, roles) ==> IsAuthenticated(s)
    ensures HasRole(s, a) && HasRole(s, b) ==> a == b
    ensures !IsAuthenticated(Logout(s)) && !HasRole(Logout(s), a) && !HasAnyRole(Logout(s), roles)
  {
  }

  /** After the start-up effect the context answers from the persisted user
      alone: whoever was signed in before is forgotten, and the role checks
      follow the stored user's role. */
  lemma InitDecidesRoles(s: Session, persisted: Option<User>, role: string)
    ensures IsAuthenticated(Init(s, persisted)) <==> persisted.Some?
    ensures HasRole(Init(s, persisted), role) <==> persisted.Some? && persisted.value.rol == Some(role)
    ensures Init(s, persisted) == Init(Initial, persisted)
  {
  }

  /** A successful login signs the user in with the user's own role; a
      failed one changes no answer the context gives. */
  lemma LoginDecidesRoles(s: Session, response: Result<User>, role: string)
    ensures response.Ok? ==> IsAuthenticated(Login(s, response))
    ensures response.Ok? ==> (HasRole(Login(s, response), role) <==> response.value.rol == Some(role))
    ensures response.Err? ==>
      (IsAuthenticated(Login(s, response)) <==> IsAuthenticated(s)) &&
      (HasRole(Login(s, response), role) <==> HasRole(s, role))
  {
  }
}

=== FILE: clientes.dfy ===
/** The client page (`pages/Clientes.jsx`): the form validator, the
    create/update request it guards, and the search box. */
module Clientes {
  import opened Common
  import opened Text

  /** The form's text fields; a blank field is the empty string. */
  datatype Form = Form(
    nombre: string,
    telefono: string,
    email: string,
    direccion: string,
    nombreUsuario: string,
    passwordHash: string)

  /** The fields an error can be attached to. */
  datatype Field = Nombre | Email | Telefono | NombreUsuario | PasswordHash

  const NombreMsg := "El nombre debe tener al menos 3 caracteres"
  const EmailRequiredMsg := "El email es requerido"
  const EmailInvalidMsg := "Ingrese un email válido"
  const TelefonoMsg := "Ingrese un teléfono válido (10-15 dígitos)"
  const NombreUsuarioMsg := "El nombre de usuario debe tener al menos 4 caracteres"
  const PasswordMsg := "La contraseña debe tener al menos 6 caracteres"

  /** A character of the class `[^\s@]`. */
  predicate EmailChar(c: char) {
    !IsSpace(c) && c != '@'
  }

  predicate AllEmailChars(s: string) {
    forall i :: 0 <= i < |s| ==> EmailChar(s[i])
  }

  /** The language of `^[^\s@]+@[^\s@]+\.[^\s@]+$`: a non-empty local part,
      one `@`, then a domain with a dot that has text on both sides, and no
      white space or second `@` anywhere. */
  predicate MatchesEmailPattern(s: string) {
    exists at, dot :: 0 < at < |s| && at + 1 < dot < |s| - 1 && EmailSplit(s, at, dot)
  }

  /** `s[at]` is the `@` and `s[dot]` the dot that the pattern matches at. */
  predicate EmailSplit(s: string, at: int, dot: int) {
    && 0 < at && at + 1 < dot < |s| - 1
    && s[at] == '@' && s[dot] == '.'
    && AllEmailChars(s[..at]) && AllEmailChars(s[at + 1..])
  }

  /** An address the pattern accepts has exactly one `@`, no white space,
      and a dot after the `@` that is neither its first nor its last
      character. */
  lemma EmailPatternShape(s: string)
    requires MatchesEmailPattern(s)
    ensures forall i :: 0 <= i < |s| ==> !IsSpace(s[i])
    ensures exists at :: 0 < at < |s| - 1 && s[at] == '@' && forall i :: 0 <= i < |s| && i != at ==> s[i] != '@'
  {
    var at, dot :| 0 < at < |s| && at + 1 < dot < |s| - 1 && EmailSplit(s, at, dot);
    assert forall i :: 0 <= i < at ==> s[..at][i] == s[i];
    assert forall i :: at < i < |s| ==> s[at + 1..][i - at - 1] == s[i];
  }

  /** `foo@bar` has no dot after the `@` and is rejected. */
  lemma EmailWithoutDotRejected()
    ensures !MatchesEmailPattern("foo@bar")
  {
  }

  /** `foo@bar.com` is accepted. */
  lemma EmailWithDotAccepted()
    ensures MatchesEmailPattern("foo@bar.com")
  {
    var s := "foo@bar.com";
    assert s[..3] == "foo" && s[4..] == "bar.com";
    assert EmailSplit(s, 3, 7);
  }

  /** The characters the phone check removes: `[\s-()]`. */
  predicate PhoneFiller(c: char) {
    IsSpace(c) || c == '-' || c == '(' || c == ')'
  }

  /** `telefono.replace(/[\s-()]/g, '')` */
  function CleanPhone(telefono: string): (r: string)
    ensures forall i :: 0 <= i < |r| ==> !PhoneFiller(r[i])
  {
    Filter(telefono, (c: char) => !PhoneFiller(c))
  }

  /** `/^[0-9]{10,15}$/` */
  predicate TenToFifteenDigits(s: string) {
    10 <= |s| <= 15 && forall i :: 0 <= i < |s| ==> IsDigit(s[i])
  }

  /** Phone numbers are optional; a given one must be 10 to 15 digits once
      spaces, hyphens and parentheses are removed. */
  predicate PhoneAccepted(telefono: string) {
    telefono == "" || TenToFifteenDigits(CleanPhone(telefono))
  }

  /** Ten plain digits pass. */
  lemma PhoneTenDigitsAccepted()
    ensures PhoneAccepted("5551234567")
  {
    var t := "5551234567";
    assert forall i :: 0 <= i < |t| ==> IsDigit(t[i]);
    CleanPhoneKeepsDigits(t);
  }

  /** Three digits are too few, whatever is stripped. */
  lemma PhoneThreeDigitsRejected()
    ensures !PhoneAccepted("123")
  {
  }

  /** Removing the filler characters keeps the digits, in order, and drops
      only filler: a number that is already bare digits is unchanged. */
  lemma CleanPhoneKeepsDigits(telefono: string)
    requires forall i :: 0 <= i < |telefono| ==> IsDigit(telefono[i])
    ensures CleanPhone(telefono) == telefono
  {
    FilterAll(telefono, (c: char) => !PhoneFiller(c));
  }

  const AllFields: set<Field> := {Nombre, Email, Telefono, NombreUsuario, PasswordHash}

  /** The message `validateForm()` attaches to one field, if any. The user
      name and password are only checked when creating. */
  function FieldError(f: Form, editing: bool, k: Field): Option<string> {
    match k
    case Nombre =>
      if f.nombre == "" || |Trim(f.nombre)| < 3 then Some(NombreMsg) else None
    case Email =>
      if f.email == "" then Some(EmailRequiredMsg)
      else if !MatchesEmailPattern(f.email) then Some(EmailInvalidMsg)
      else None
    case Telefono =>
      if f.telefono != "" && !TenToFifteenDigits(CleanPhone(f.telefono)) then Some(TelefonoMsg) else None
    case NombreUsuario =>
      if !editing && (f.nombreUsuario == "" || |Trim(f.nombreUsuario)| < 4) then Some(NombreUsuarioMsg) else None
    case PasswordHash =>
      if !editing && (f.passwordHash == "" || |f.passwordHash| < 6) then Some(PasswordMsg) else None
  }

  /** `validateForm()`: the error message of every field that breaks its
      rule. */
  function Validate(f: Form, editing: bool): (errors: map<Field, string>)
    ensures forall k :: k in errors <==> FieldError(f, editing, k).Some?
  {
    map k | k in AllFields && FieldError(f, editing, k).Some? :: FieldError(f, editing, k).value
  }

  /** Each field's rule, in words: a name of at least three characters once
      trimmed, an address the e-mail pattern accepts ("required" when
      blank), an optional phone of 10 to 15 digits, and, when creating
      only, a user name of at least four trimmed characters and a password
      of at least six characters. */
  lemma ValidateRules(f: Form, editing: bool)
    ensures Nombre in Validate(f, editing) <==> |Trim(f.nombre)| < 3
    ensures Email in Validate(f, editing) <==> !MatchesEmailPattern(f.email)
    ensures Email in Validate(f, editing) ==>
      Validate(f, editing)[Email] == (if f.email == "" then EmailRequiredMsg else EmailInvalidMsg)
    ensures Telefono in Validate(f, editing) <==> !PhoneAccepted(f.telefono)
    ensures NombreUsuario in Validate(f, editing) <==> !editing && |Trim(f.nombreUsuario)| < 4
    ensures PasswordHash in Validate(f, editing) <==> !editing && |f.passwordHash| < 6
  {
    FieldRule(f, editing, Nombre);
    FieldRule(f, editing, Email);
    FieldRule(f, editing, Telefono);
    FieldRule(f, editing, NombreUsuario);
    FieldRule(f, editing, PasswordHash);
  }

  lemma EmptyEmailRejected()
    ensures !MatchesEmailPattern("")
  {
  }

  /** Each field's rule, stated on its own: a trimmed name of three
      characters or more, an address the pattern accepts, an acceptable
      phone, and, when creating, a trimmed user name of four characters or
      more and a password of six or more. */
  predicate RuleHolds(f: Form, editing: bool, k: Field) {
    match k
    case Nombre => |Trim(f.nombre)| >= 3
    case Email => MatchesEmailPattern(f.email)
    case Telefono => PhoneAccepted(f.telefono)
    case NombreUsuario => !editing ==> |Trim(f.nombreUsuario)| >= 4
    case PasswordHash => !editing ==> |f.passwordHash| >= 6
  }

  /** The form may be sent exactly when every rule holds. */
  predicate RulesHold(f: Form, editing: bool) {
    forall k :: RuleHolds(f, editing, k)
  }

  lemma ValidIffRulesHold(f: Form, editing: bool)
    ensures Validate(f, editing) == map[] <==> RulesHold(f, editing)
  {
    var e := Validate(f, editing);
    forall k ensures k in e <==> !RuleHolds(f, editing, k) {
      FieldRule(f, editing, k);
    }
    if RulesHold(f, editing) {
      assert e.Keys == {};
    } else {
      var k :| !RuleHolds(f, editing, k);
      assert k in e;
    }
  }

  /** A field passes exactly when its rule holds. */
  lemma FieldRule(f: Form, editing: bool, k: Field)
    ensures FieldError(f, editing, k).None? <==> RuleHolds(f, editing, k)
  {
    if k == Email {
      EmptyEmailRejected();
    }
  }

  /** Editing checks the same rules as creating, minus the credentials. */
  lemma EditingSkipsCredentials(f: Form)
    ensures Validate(f, true) == Validate(f, false) - {NombreUsuario, PasswordHash}
    ensures NombreUsuario !in Validate(f, true) && PasswordHash !in Validate(f, true)
  {
    var a := Validate(f, true);
    var b := Validate(f, false) - {NombreUsuario, PasswordHash};
    assert forall k :: k in a <==> k in b;
    assert forall k :: k in a ==> a[k] == b[k];
  }

  /** The body sent to the backend, keyed by the source's field names. */
  type Payload = map<string, string>

  function FormFields(f: Form): Payload {
    map[
      "nombre" := f.nombre, "telefono" := f.telefono, "email" := f.email,
      "direccion" := f.direccion, "nombre_usuario" := f.nombreUsuario,
      "password_hash" := f.passwordHash]
  }

  /** The update body: the personal data only, without the credentials. */
  function EditPayload(f: Form): (p: Payload)
    ensures p.Keys == {"nombre", "telefono", "email", "direccion"}
    ensures p["nombre"] == f.nombre && p["telefono"] == f.telefono
    ensures p["email"] == f.email && p["direccion"] == f.direccion
  {
    FormFields(f) - {"nombre_usuario", "password_hash"}
  }

  /** The create body: the whole form plus the role `Cliente`. */
  function CreatePayload(f: Form): (p: Payload)
    ensures p.Keys == FormFields(f).Keys + {"rol"}
    ensures p["rol"] == "Cliente"
    ensures forall k :: k in FormFields(f) ==> p[k] == FormFields(f)[k]
  {
    FormFields(f)["rol" := "Cliente"]
  }

  /** A request `handleSubmit` sends. */
  datatype Request = Create(body: Payload) | Update(id: int, body: Payload)

  /** `handleSubmit`: validate, then update the client being edited or create
      a new one; an invalid form sends nothing. `editing` is the id of the
      client being edited, if any. */
  function Submit(f: Form, editing: Option<int>): (r: (map<Field, string>, Option<Request>))
    ensures r.0 == Validate(f, editing.Some?)
    ensures r.1.Some? <==> r.0 == map[]
    ensures r.1.Some? && editing.Some? ==> r.1.value == Update(editing.value, EditPayload(f))
    ensures r.1.Some? && editing.None? ==> r.1.value == Create(CreatePayload(f))
  {
    var errors := Validate(f, editing.Some?);
    if errors != map[] then (errors, None)
    else match editing
      case Some(id) => (errors, Some(Update(id, EditPayload(f))))
      case None => (errors, Some(Create(CreatePayload(f))))
  }

  /** A client as listed; each searched field may be missing. */
  datatype Cliente = Cliente(nombre: Option<string>, telefono: Option<string>, email: Option<string>)

  /** The search test: name or email contain the term ignoring case, or the
      phone contains it as typed. A missing field never matches. */
  predicate MatchesSearch(c: Cliente, term: string) {
    || (c.nombre.Some? && IncludesIgnoringCase(c.nombre.value, term))
    || (c.telefono.Some? && Includes(c.telefono.value, term))
    || (c.email.Some? && IncludesIgnoringCase(c.email.value, term))
  }

  /** `filteredClientes` */
  function FilterClientes(cs: seq<Cliente>, term: string): (r: seq<Cliente>)
    ensures forall i :: 0 <= i < |r| ==> r[i] in cs && MatchesSearch(r[i], term)
    ensures forall i :: 0 <= i < |cs| && MatchesSearch(cs[i], term) ==> cs[i] in r
  {
    Filter(cs, (c: Cliente) => MatchesSearch(c, term))
  }

  /** An empty search keeps every client that has at least one of the three
      searched fields; a client with none of them is hidden even then. */
  lemma EmptySearchKeeps(c: Cliente)
    ensures MatchesSearch(c, "") <==> c.nombre.Some? || c.telefono.Some? || c.email.Some?
  {
    if c.nombre.Some? { IncludesEmpty(Lower(c.nombre.value)); }
    if c.telefono.Some? { IncludesEmpty(c.telefono.value); }
    if c.email.Some? { IncludesEmpty(Lower(c.email.value)); }
  }

  /** The name and email match ignores the case of the term; only the phone
      match depends on it. */
  lemma SearchCaseOfTerm(c: Cliente, term: string)
    requires c.telefono.None?
    ensures MatchesSearch(c, Upper(term)) == MatchesSearch(c, term)
  {
    if c.nombre.Some? { IncludesIgnoringCaseOfTerm(c.nombre.value, term); }
    if c.email.Some? { IncludesIgnoringCaseOfTerm(c.email.value, term); }
  }

  /** Searching the concatenation of two lists is searching each in turn:
      the kept clients keep their relative order. */
  lemma FilterClientesAppend(a: seq<Cliente>, b: seq<Cliente>, term: string)
    ensures FilterClientes(a + b, term) == FilterClientes(a, term) + FilterClientes(b, term)
  {
    FilterAppend(a, b, (c: Cliente) => MatchesSearch(c, term));
  }
}

=== FILE: common.dfy ===
/** Building blocks shared by every page: optional values (JavaScript's
    null/undefined), service results, the spot record nested in rentals
    and payments, and the order-preserving
    `Array.prototype.filter` together with the `filter(...).length`
    counting idiom the pages use for their statistics. */
module Common {

  /** A value that may be missing (`null`/`undefined` in the source). */
  datatype Option<+T> = None | Some(value: T) {
    /** The `x || default` / `x ?? default` idiom. */
    function GetOr(default: T): T {
      match this
      case Some(v) => v
      case None => default
    }
  }

  /** The outcome of a call into a backend service: the value it resolves
      to, or the error it rejects with. */
  datatype Result<+T> = Ok(value: T) | Err(message: string)

  /** The spot record nested in a rental, as the pages read it. The
      backend's field `codigo_spot` is the code every row, selector and
      spot card shows. `codigo` is the name the spots page gives that code
      in its own adapted copy only, so a spot that comes with a rental
      normally has no `codigo`. */
  datatype RentalSpot = RentalSpot(codigo: Option<string>, codigoSpot: Option<string>)

  /** `spot?.codigo || ''`: the field the rental and payment searches
      read. */
  function SearchedCode(spot: Option<RentalSpot>): string {
    if spot.Some? && spot.value.codigo.Some? then spot.value.codigo.value else ""
  }

  /** `spot?.codigo_spot || ''`: the code shown for the spot, empty when
      there is none. */
  function SpotCode(spot: Option<RentalSpot>): string {
    if spot.Some? && spot.value.codigoSpot.Some? then spot.value.codigoSpot.value else ""
  }

  /** `spot?.codigo_spot || '-'`: what a list row prints for the spot. */
  function ShownCode(spot: Option<RentalSpot>): (r: string)
    ensures r == "-" <==> SpotCode(spot) in {"", "-"}
    ensures r != "-" ==> r == SpotCode(spot)
  {
    if SpotCode(spot) == "" then "-" else SpotCode(spot)
  }

  function Min(a: int, b: int): int { if a <= b then a else b }

  function Max(a: int, b: int): int { if a >= b then a else b }

  /** The elements of `xs` that `keep` accepts, in their original order. */
  function Filter<T>(xs: seq<T>, keep: T -> bool): (r: seq<T>)
    ensures |r| <= |xs|
    ensures forall i :: 0 <= i < |r| ==> r[i] in xs && keep(r[i])
    ensures forall i :: 0 <= i < |xs| && keep(xs[i]) ==> xs[i] in r
  {
    if |xs| == 0 then []
    else (if keep(xs[0]) then [xs[0]] else []) + Filter(xs[1..], keep)
  }

  /** How many elements of `xs` satisfy `p` (`xs.filter(p).length`). */
  function Count<T>(xs: seq<T>, p: T -> bool): nat {
    |Filter(xs, p)|
  }

  /** Filtering distributes over concatenation: the kept elements of `a`
      come, in order, before the kept elements of `b`. Together with the
      membership clause of `Filter` this pins the filter down completely:
      nothing is reordered, duplicated or invented. */
  lemma {:induction false} FilterAppend<T>(a: seq<T>, b: seq<T>, keep: T -> bool)
    ensures Filter(a + b, keep) == Filter(a, keep) + Filter(b, keep)
  {
    if |a| == 0 {
      assert a + b == b;
    } else {
      assert (a + b)[1..] == a[1..] + b;
      FilterAppend(a[1..], b, keep);
    }
  }

  /** A filter that accepts every element returns the list unchanged. */
  lemma {:induction false} FilterAll<T>(xs: seq<T>, keep: T -> bool)
    requires forall x :: x in xs ==> keep(x)
    ensures Filter(xs, keep) == xs
  {
    if |xs| > 0 {
      assert forall x :: x in xs[1..] ==> x in xs;
      FilterAll(xs[1..], keep);
      assert keep(xs[0]);
      assert xs == [xs[0]] + xs[1..];
    }
  }

  /** Counting one element at a time. */
  lemma CountCons<T>(xs: seq<T>, p: T -> bool)
    requires |xs| > 0
    ensures Count(xs, p) == (if p(xs[0]) then 1 else 0) + Count(xs[1..], p)
  {
  }

  /** Two predicates that never hold together count at most the whole list. */
  lemma {:induction false} CountDisjoint<T>(xs: seq<T>, p: T -> bool, q: T -> bool)
    requires forall x :: x in xs ==> !(p(x) && q(x))
    ensures Count(xs, p) + Count(xs, q) <= |xs|
  {
    if |xs| > 0 {
      assert forall x :: x in xs[1..] ==> x in xs;
      CountDisjoint(xs[1..], p, q);
      CountCons(xs, p);
      CountCons(xs, q);
    }
  }
}

=== FILE: dashboard.dfy ===
/** The dashboard (`pages/Dashboard.jsx`): the spot counters computed from
    the loaded spots, and the offline fallback that decides which spots the
    counters describe. */
module Dashboard {
  import opened Common

  /** The spot states (`SPOT_ESTADOS` in `utils/constants.js`). */
  const Disponible := "Disponible"
  const Pagado := "Pagado"
  const Proceso := "Proceso"
  const Caliche := "Caliche"

  const SpotEstados: set<string> := {Disponible, Pagado, Proceso, Caliche}

  /** A spot with its shown code (`codigo_spot`); its state arrives from
      the backend as text. */
  datatype Spot = Spot(idSpot: int, codigoSpot: string, estado: string)

  predicate IsDisponible(s: Spot) { s.estado == Disponible }
  predicate IsPagado(s: Spot) { s.estado == Pagado }
  predicate IsProceso(s: Spot) { s.estado == Proceso }
  predicate IsCaliche(s: Spot) { s.estado == Caliche }

  /** The counters. */
  datatype Stats = Stats(total: nat, disponibles: nat, pagados: nat, enProceso: nat, caliche: nat)

  /** The counters before anything has loaded. */
  const InitialStats := Stats(0, 0, 0, 0, 0)

  /** `calculateStats(data)`: all spots, then the spots in each state. */
  function CalculateStats(data: seq<Spot>): (s: Stats)
    ensures s.total == |data|
    ensures s.disponibles == |Filter(data, IsDisponible)| && s.pagados == |Filter(data, IsPagado)|
    ensures s.enProceso == |Filter(data, IsProceso)| && s.caliche == |Filter(data, IsCaliche)|
  {
    Stats(|data|, Count(data, IsDisponible), Count(data, IsPagado), Count(data, IsProceso), Count(data, IsCaliche))
  }

  function StateSum(s: Stats): nat {
    s.disponibles + s.pagados + s.enProceso + s.caliche
  }

  /** The four state counters never add up to more than the total, and add
      up to exactly the total when every spot is in one of the four known
      states. */
  lemma {:induction false} StatsPartition(data: seq<Spot>)
    ensures StateSum(CalculateStats(data)) <= |data|
    ensures (forall i :: 0 <= i < |data| ==> data[i].estado in SpotEstados) ==>
      StateSum(CalculateStats(data)) == |data|
  {
    if |data| > 0 {
      StatsPartition(data[1..]);
      CountCons(data, IsDisponible);
      CountCons(data, IsPagado);
      CountCons(data, IsProceso);
      CountCons(data, IsCaliche);
      if forall i :: 0 <= i < |data| ==> data[i].estado in SpotEstados {
        assert forall i :: 0 <= i < |data[1..]| ==> data[1..][i].estado in SpotEstados by {
          forall i | 0 <= i < |data[1..]| ensures data[1..][i].estado in SpotEstados {
            assert data[1..][i] == data[i + 1];
          }
        }
      }
    }
  }

  /** One spot in a state nobody counts makes the counters fall short of the
      total. */
  lemma UnknownStateFallsShort()
    ensures StateSum(CalculateStats([Spot(1, "A01", "Reservado")])) == 0
    ensures CalculateStats([Spot(1, "A01", "Reservado")]).total == 1
  {
    CountCons([Spot(1, "A01", "Reservado")], IsDisponible);
    CountCons([Spot(1, "A01", "Reservado")], IsPagado);
    CountCons([Spot(1, "A01", "Reservado")], IsProceso);
    CountCons([Spot(1, "A01", "Reservado")], IsCaliche);
  }

  /** What the page shows: the spots and their counters. */
  datatype View = View(spots: seq<Spot>, stats: Stats)

  /** `loadSpots()` once the service has answered. On success the spots are
      shown, counted and cached for the park; on failure the park's cached
      spots, if any, are shown and counted instead, and otherwise the page
      keeps what it had. The second component is the park's cache
      afterwards. */
  function LoadSpots(v: View, response: Result<seq<Spot>>, cached: Option<seq<Spot>>): (r: (View, Option<seq<Spot>>))
    ensures response.Ok? ==> r.0.spots == response.value && r.1 == Some(response.value)
    ensures response.Err? ==> r.1 == cached
    ensures response.Err? && cached.Some? ==> r.0.spots == cached.value
    ensures response.Err? && cached.None? ==> r.0 == v
    ensures r.0 != v ==> r.0.stats == CalculateStats(r.0.spots)
  {
    match response
    case Ok(data) => (View(data, CalculateStats(data)), Some(data))
    case Err(_) =>
      match cached
      case Some(data) => (View(data, CalculateStats(data)), cached)
      case None => (v, cached)
  }

  /** The counters always describe the spots on screen, once anything is
      on screen: loading keeps that agreement. */
  lemma LoadKeepsStatsInStep(v: View, response: Result<seq<Spot>>, cached: Option<seq<Spot>>)
    requires v.stats == CalculateStats(v.spots)
    ensures LoadSpots(v, response, cached).0.stats == CalculateStats(LoadSpots(v, response, cached).0.spots)
  {
  }

  /** A failed load right after a successful one shows the same spots and
      counters again. */
  lemma OfflineReplaysLastLoad(v: View, data: seq<Spot>, message: string)
    ensures var (w, cache) := LoadSpots(v, Ok(data), None);
      LoadSpots(w, Err(message), cache).0 == w
  {
  }
}

=== FILE: eventos.dfy ===
/** The events page (`pages/Eventos.jsx`): the date check in front of a
    save, the two list filters, and how an event's type is labelled and
    coloured. */
module Eventos {
  import opened Common

  /** The event types the form offers, with their labels (`tiposEvento`). */
  datatype TipoOption = TipoOption(value: string, display: string)

  const TiposEvento: seq<TipoOption> := [
    TipoOption("mantenimiento", "Mantenimiento"),
    TipoOption("festivo", "Festivo"),
    TipoOption("reunion", "Reunión"),
    TipoOption("otro", "Otro")]

  /** The type a new event starts with. */
  const DefaultTipo := "otro"

  /** `i` is the position of the first option with the given value. */
  predicate FirstWithValue(options: seq<TipoOption>, value: string, i: int) {
    0 <= i < |options| && options[i].value == value && forall j :: 0 <= j < i ==> options[j].value != value
  }

  /** The first option with the given value (`tiposEvento.find`). */
  function FindTipo(options: seq<TipoOption>, value: string): (r: Option<TipoOption>)
    ensures r.Some? ==> exists i :: FirstWithValue(options, value, i) && options[i] == r.value
    ensures r.None? ==> forall i :: 0 <= i < |options| ==> options[i].value != value
  {
    if |options| == 0 then None
    else if options[0].value == value then
      assert FirstWithValue(options, value, 0);
      Some(options[0])
    else
      var r := FindTipo(options[1..], value);
      FindTipoShift(options, value, r);
      r
  }

  /** A match found after a non-matching head is the first match of the
      whole list, one position on. */
  lemma FindTipoShift(options: seq<TipoOption>, value: string, r: Option<TipoOption>)
    requires |options| > 0 && options[0].value != value
    requires r.Some? ==> exists i :: FirstWithValue(options[1..], value, i) && options[1..][i] == r.value
    ensures r.Some? ==> exists i :: FirstWithValue(options, value, i) && options[i] == r.value
  {
    if r.Some? {
      var i :| FirstWithValue(options[1..], value, i) && options[1..][i] == r.value;
      assert FirstWithValue(options, value, i + 1);
    }
  }

  /** The type column's text: the option's label, or, for a type the form
      does not know (or an empty label), the raw type. */
  function TipoLabel(tipo: string): (r: string)
    ensures r == tipo || exists i :: 0 <= i < |TiposEvento| && TiposEvento[i].value == tipo && r == TiposEvento[i].display
  {
    var o := FindTipo(TiposEvento, tipo);
    if o.Some? && o.value.display != "" then o.value.display else tipo
  }

  /** Each known type shows its own label; any other type shows as it is. */
  lemma TipoLabels(tipo: string)
    ensures TipoLabel("mantenimiento") == "Mantenimiento"
    ensures TipoLabel("festivo") == "Festivo"
    ensures TipoLabel("reunion") == "Reunión"
    ensures TipoLabel("otro") == "Otro"
    ensures tipo !in {"mantenimiento", "festivo", "reunion", "otro"} ==> TipoLabel(tipo) == tipo
  {
    KnownLabel(0);
    KnownLabel(1);
    KnownLabel(2);
    KnownLabel(3);
    if tipo !in {"mantenimiento", "festivo", "reunion", "otro"} {
      UnknownLabel(tipo);
    }
  }

  lemma KnownLabel(i: int)
    requires 0 <= i < |TiposEvento|
    ensures TipoLabel(TiposEvento[i].value) == TiposEvento[i].display
  {
    FindKnown(i);
  }

  lemma UnknownLabel(tipo: string)
    requires tipo !in {"mantenimiento", "festivo", "reunion", "otro"}
    ensures TipoLabel(tipo) == tipo
  {
    assert forall i :: 0 <= i < |TiposEvento| ==> TiposEvento[i].value != tipo;
  }

  /** The options' values are all different, so looking one up finds that
      very option. */
  lemma FindKnown(i: int)
    requires 0 <= i < |TiposEvento|
    ensures FindTipo(TiposEvento, TiposEvento[i].value) == Some(TiposEvento[i])
  {
    var o := FindTipo(TiposEvento, TiposEvento[i].value);
    assert o.Some?;
    var j :| FirstWithValue(TiposEvento, TiposEvento[i].value, j) && TiposEvento[j] == o.value;
    assert TiposEvento[j].value == TiposEvento[i].value;
  }

  /** The badge classes of each type (`getEventoTypeColor`). */
  const TypeColors: map<string, string> := map[
    "mantenimiento" := "bg-orange-100 text-orange-800",
    "festivo" := "bg-green-100 text-green-800",
    "reunion" := "bg-blue-100 text-blue-800",
    "otro" := "bg-gray-100 text-gray-800"]

  /** `getEventoTypeColor(tipo)`: the type's classes, those of `otro` for
      any type without its own. */
  function TypeColor(tipo: string): (r: string)
    ensures tipo in TypeColors ==> r == TypeColors[tipo]
    ensures tipo !in TypeColors ==> r == TypeColors[DefaultTipo]
    ensures r in TypeColors.Values
  {
    if tipo in TypeColors then TypeColors[tipo] else TypeColors[DefaultTipo]
  }

  /** The coloured types are exactly the types the form offers, the four
      colours differ, and an unknown type looks like `otro`. */
  lemma TypeColorsMatchOptions(tipo: string)
    ensures forall i :: 0 <= i < |TiposEvento| ==> TiposEvento[i].value in TypeColors
    ensures tipo in TypeColors <==> tipo in {"mantenimiento", "festivo", "reunion", "otro"}
    ensures TypeColor("mantenimiento") != TypeColor("festivo") && TypeColor("festivo") != TypeColor("reunion")
    ensures TypeColor("reunion") != TypeColor("otro") && TypeColor("mantenimiento") != TypeColor("otro")
    ensures TypeColor("mantenimiento") != TypeColor("reunion") && TypeColor("festivo") != TypeColor("otro")
    ensures tipo !in TypeColors ==> TypeColor(tipo) == TypeColor(DefaultTipo)
  {
  }

  /** The event form. The two dates are held as the instants `new Date`
      reads from the inputs; `None` is an input it cannot read (`Invalid
      Date`), such as an empty one. */
  datatype Form = Form(
    idRvPark: string,
    titulo: string,
    descripcion: string,
    fechaInicio: Option<int>,
    fechaFin: Option<int>,
    ubicacion: string,
    tipoEvento: string)

  function BlankForm(): Form {
    Form("", "", "", None, None, "", DefaultTipo)
  }

  /** `new Date(fecha_fin) <= new Date(fecha_inicio)`: an invalid date makes
      the comparison false. */
  predicate EndNotAfterStart(f: Form) {
    f.fechaInicio.Some? && f.fechaFin.Some? && f.fechaFin.value <= f.fechaInicio.value
  }

  datatype Request = Create(form: Form) | Update(id: int, form: Form)

  /** What a submit does: refuse with the date message, or send the form. */
  datatype Outcome = DateRejected | Send(request: Request)

  const DateMessage := "La fecha de fin debe ser posterior a la fecha de inicio"

  /** `handleSubmit`: a form whose end is not after its start is refused;
      otherwise it is sent as an update of the event in edit or as a new
      event. */
  function Submit(f: Form, editing: Option<int>): (r: Outcome)
    ensures r.DateRejected? <==>
      f.fechaInicio.Some? && f.fechaFin.Some? && f.fechaFin.value <= f.fechaInicio.value
    ensures r.Send? ==> r.request.form == f && (r.request.Update? <==> editing.Some?)
    ensures r.Send? && editing.Some? ==> r.request.id == editing.value
  {
    if EndNotAfterStart(f) then DateRejected
    else match editing
      case Some(id) => Send(Update(id, f))
      case None => Send(Create(f))
  }

  /** Whatever is sent ends after it starts, or has a date that could not be
      read: a missing date slips past the check. */
  lemma SentDatesOrdered(f: Form, editing: Option<int>)
    ensures Submit(f, editing).Send? && f.fechaInicio.Some? && f.fechaFin.Some? ==>
      f.fechaInicio.value < f.fechaFin.value
    ensures f.fechaFin.None? ==> Submit(f, editing).Send?
    ensures f.fechaInicio.None? ==> Submit(f, editing).Send?
  {
  }

  /** A date of a listed event as `new Date` reads it: `null` is the epoch
      (instant 0), a readable text is its instant, and `undefined` or text
      it cannot read is an `Invalid Date`. */
  datatype DateValue = Null | At(instant: int) | Unreadable

  function Instant(d: DateValue): (r: Option<int>)
    ensures r.None? <==> d.Unreadable?
    ensures d.Null? ==> r == Some(0)
    ensures d.At? ==> r == Some(d.instant)
  {
    match d
    case Null => Some(0)
    case At(t) => Some(t)
    case Unreadable => None
  }

  /** An event as listed. */
  datatype Evento = Evento(
    idEvento: int,
    idRvPark: Option<string>,
    titulo: Option<string>,
    descripcion: Option<string>,
    fechaInicio: DateValue,
    fechaFin: DateValue,
    ubicacion: Option<string>,
    tipoEvento: Option<string>)

  /** `handleEdit(evento)`: the event's fields, missing text blank and a
      missing type `otro`. The dates go through the input formatting, which
      keeps the instant to the minute (`toMinute` stands for it) and throws
      on an `Invalid Date` (`toISOString`), so an event with an unreadable
      date never reaches the form (`None`); a `null` date loads as the
      epoch. */
  function EditForm(e: Evento, toMinute: int -> int): (f: Option<Form>)
    ensures f.Some? <==> !e.fechaInicio.Unreadable? && !e.fechaFin.Unreadable?
    ensures f.Some? ==> f.value.tipoEvento == (if e.tipoEvento.None? || e.tipoEvento.value == "" then DefaultTipo else e.tipoEvento.value)
    ensures f.Some? ==> f.value.titulo == e.titulo.GetOr("") && f.value.ubicacion == e.ubicacion.GetOr("")
    ensures f.Some? && e.fechaInicio.At? ==> f.value.fechaInicio == Some(toMinute(e.fechaInicio.instant))
    ensures f.Some? && e.fechaFin.At? ==> f.value.fechaFin == Some(toMinute(e.fechaFin.instant))
    ensures f.Some? && e.fechaInicio.Null? ==> f.value.fechaInicio == Some(toMinute(0))
    ensures f.Some? && e.fechaFin.Null? ==> f.value.fechaFin == Some(toMinute(0))
  {
    var inicio := Instant(e.fechaInicio);
    var fin := Instant(e.fechaFin);
    if inicio.None? || fin.None? then None
    else Some(Form(e.idRvPark.GetOr(""), e.titulo.GetOr(""), e.descripcion.GetOr(""),
         Some(toMinute(inicio.value)), Some(toMinute(fin.value)),
         e.ubicacion.GetOr(""),
         if e.tipoEvento.None? || e.tipoEvento.value == "" then DefaultTipo else e.tipoEvento.value))
  }

  /** A loaded event's dates both read, so they face the date check on the
      next save: an event whose end was `null` and whose start is after the
      epoch minute is refused until the end is changed. */
  lemma EditedNullEndRefused(e: Evento, toMinute: int -> int, editing: Option<int>)
    requires e.fechaFin.Null? && e.fechaInicio.At?
    requires toMinute(0) <= toMinute(e.fechaInicio.instant)
    ensures EditForm(e, toMinute).Some?
    ensures Submit(EditForm(e, toMinute).value, editing).DateRejected?
  {
  }

  /** An event loaded for editing keeps its type whenever the type has a
      colour of its own, so resaving it does not change its badge. */
  lemma EditKeepsTypeColor(e: Evento, toMinute: int -> int)
    requires EditForm(e, toMinute).Some?
    ensures TypeColor(EditForm(e, toMinute).value.tipoEvento) == TypeColor(e.tipoEvento.GetOr(""))
  {
  }

  /** The list's filters; empty text means "all". */
  datatype Filters = Filters(idRvPark: string, tipoEvento: string)

  datatype FilterField = RvPark | TipoEvento

  const NoFilters := Filters("", "")

  /** `handleFilterChange(field, value)`: that one filter takes the value,
      the other keeps its own. */
  function HandleFilterChange(f: Filters, field: FilterField, value: string): (r: Filters)
    ensures field == RvPark ==> r.idRvPark == value && r.tipoEvento == f.tipoEvento
    ensures field == TipoEvento ==> r.tipoEvento == value && r.idRvPark == f.idRvPark
  {
    match field
    case RvPark => f.(idRvPark := value)
    case TipoEvento => f.(tipoEvento := value)
  }

  /** `clearFilters()`. */
  function ClearFilters(f: Filters): (r: Filters)
    ensures r.idRvPark == "" && r.tipoEvento == ""
  {
    NoFilters
  }

  /** Changing the two filters commutes, a change undone by setting the old
      value restores the filters, and clearing is the same as setting both
      filters to empty. */
  lemma FilterChangesCommute(f: Filters, a: string, b: string)
    ensures HandleFilterChange(HandleFilterChange(f, RvPark, a), TipoEvento, b)
         == HandleFilterChange(HandleFilterChange(f, TipoEvento, b), RvPark, a)
    ensures HandleFilterChange(HandleFilterChange(f, RvPark, a), RvPark, f.idRvPark) == f
    ensures HandleFilterChange(HandleFilterChange(f, TipoEvento, b), TipoEvento, f.tipoEvento) == f
    ensures ClearFilters(f) == HandleFilterChange(HandleFilterChange(f, RvPark, ""), TipoEvento, "")
  {
  }
}

=== FILE: format_utils.dfy ===
/** The string helpers of `utils/formatUtils.js`. Falsy text (`null`,
    `undefined`, `''`) is the empty string here: every helper treats them
    alike. */
module FormatUtils {
  import opened Common
  import opened Text

  /** What `formatCurrency` shows for a missing amount. */
  const ZeroCurrency := "$0.00"

  /** `formatCurrency(amount)`. The locale formatting of a present amount
      (`Intl.NumberFormat('es-MX', MXN)`) is a library call and arrives as
      the parameter `intl`; a missing amount is `$0.00`. */
  function FormatCurrency(amount: Option<int>, intl: int -> string): (r: string)
    ensures amount.None? ==> r == "$0.00"
    ensures amount.Some? ==> r == intl(amount.value)
  {
    match amount
    case None => ZeroCurrency
    case Some(cents) => intl(cents)
  }

  /** The `maxLength` `truncateText` uses when none is given. */
  const DefaultMaxLength := 50

  const Ellipsis := "..."

  /** `text.substring(0, end)` for a non-negative text: `end` is clamped
      into `0..|text|`. */
  function Prefix(text: string, end: int): (r: string)
    ensures |r| == Max(0, Min(end, |text|))
    ensures r == text[..|r|]
  {
    text[..Max(0, Min(end, |text|))]
  }

  /** `truncateText(text, maxLength)`: the text itself when it fits, else its
      first `maxLength` characters and an ellipsis. */
  function TruncateText(text: string, maxLength: int): (r: string)
    ensures text == "" ==> r == ""
    ensures |text| <= maxLength ==> r == text
    ensures text != "" && |text| > maxLength >= 0 ==>
      |r| == maxLength + 3 && r[..maxLength] == text[..maxLength] && r[maxLength..] == Ellipsis
  {
    if text == "" then ""
    else if |text| <= maxLength then text
    else Prefix(text, maxLength) + Ellipsis
  }

  /** Whatever the text, the result is either the text itself or a prefix
      of it followed by the ellipsis, and never longer than `maxLength + 3`.
      A text only slightly too long (by one or two characters) comes out
      longer than it went in. */
  lemma TruncateShape(text: string, maxLength: nat)
    ensures var r := TruncateText(text, maxLength);
      && |r| <= Max(|text|, maxLength + 3)
      && (r == text || (|text| > maxLength && r == text[..maxLength] + Ellipsis))
    ensures |text| == maxLength + 1 ==> |TruncateText(text, maxLength)| == |text| + 2
  {
  }

  /** `capitalizeFirst(text)`: the first character upper-cased and the rest
      lower-cased. */
  function CapitalizeFirst(text: string): (r: string)
    ensures |r| == |text|
    ensures text != "" ==> r[0] == UpperChar(text[0]) && r[1..] == Lower(text[1..])
  {
    if text == "" then "" else [UpperChar(text[0])] + Lower(text[1..])
  }

  /** Capitalising an already capitalised text changes nothing, and the
      result does not depend on the case the text was typed in. */
  lemma CapitalizeFirstIdempotent(text: string)
    ensures CapitalizeFirst(CapitalizeFirst(text)) == CapitalizeFirst(text)
    ensures CapitalizeFirst(Lower(text)) == CapitalizeFirst(text)
    ensures CapitalizeFirst(Upper(text)) == CapitalizeFirst(text)
  {
    if text != "" {
      var r := CapitalizeFirst(text);
      assert r[1..] == Lower(text[1..]);
      LowerIdempotent(text[1..]);
      assert Lower(text)[1..] == Lower(text[1..]);
      assert Upper(text)[1..] == Upper(text[1..]);
    }
  }

  /** JavaScript's `${word[0]}` inside a template literal: the first
      character, or the text `undefined` when the word is empty. */
  function FirstCharOrUndefined(word: string): string {
    if word == "" then "undefined" else [word[0]]
  }

  /** `getInitials(name)` as written: split on single spaces; one part gives
      its first two characters, several give the first character of the
      first and of the last part; then upper-cased. An empty first or last
      part (a leading or trailing space) contributes `undefined`. */
  function GetInitials(name: string): (r: string)
    ensures name == "" ==> r == ""
    ensures ' ' !in name && name != "" ==> r == Upper(name[..Min(2, |name|)])
  {
    if name == "" then ""
    else
      var parts := Split(name, ' ');
      SplitNoSeparatorWhenOnePart(name);
      if |parts| == 1 then
        Upper(Prefix(parts[0], 2))
      else Upper(FirstCharOrUndefined(parts[0]) + FirstCharOrUndefined(parts[|parts| - 1]))
  }

  lemma SplitNoSeparatorWhenOnePart(name: string)
    ensures ' ' !in name ==> Split(name, ' ') == [name]
  {
    if ' ' !in name {
      SplitNoSeparator(name, ' ');
    }
  }

  /** For words separated by single spaces the source's result is the
      upper-cased first letters of the first and the last word. */
  lemma GetInitialsOfWords(name: string)
    requires ' ' in name
    requires forall k :: 0 <= k < |Split(name, ' ')| ==> Split(name, ' ')[k] != ""
    ensures var parts := Split(name, ' ');
      GetInitials(name) == [UpperChar(parts[0][0]), UpperChar(parts[|parts| - 1][0])]
  {
    var parts := Split(name, ' ');
    SplitWithSeparator(name, ' ');
    assert FirstCharOrUndefined(parts[0]) == [parts[0][0]];
    assert FirstCharOrUndefined(parts[|parts| - 1]) == [parts[|parts| - 1][0]];
  }

  /** The discrepancy: a trailing space makes the last part empty and the
      initials read `AUNDEFINED` instead of `AN`. */
  lemma GetInitialsTrailingSpace()
    ensures GetInitials("Ana ") == "AUNDEFINED"
  {
    SplitAnaSpace();
    assert FirstCharOrUndefined("Ana") == "A";
    assert FirstCharOrUndefined("") == "undefined";
    UpperAundefined();
  }

  lemma UpperAundefined()
    ensures Upper("A" + "undefined") == "AUNDEFINED"
  {
  }

  /** How the sample name splits. */
  lemma SplitAnaSpace()
    ensures Split("Ana ", ' ') == ["Ana", ""]
  {
    assert " "[1..] == "";
    assert Split(" ", ' ') == ["", ""];
    assert "a "[0] == 'a' && "a "[1..] == " ";
    assert Split("a ", ' ') == [['a'] + ""] + [""];
    assert ['a'] + "" == "a";
    assert "na "[0] == 'n' && "na "[1..] == "a ";
    assert Split("na ", ' ') == [['n'] + "a"] + [""];
    assert ['n'] + "a" == "na";
    assert "Ana "[0] == 'A' && "Ana "[1..] == "na ";
    assert Split("Ana ", ' ') == [['A'] + "na"] + [""];
    assert ['A'] + "na" == "Ana";
  }

  /** The words of a name: its space-separated parts that are not empty. */
  function Words(name: string): (ws: seq<string>)
    ensures forall k :: 0 <= k < |ws| ==> ws[k] != "" && ' ' !in ws[k]
  {
    Filter(Split(name, ' '), (w: string) => w != "")
  }

  /** The initials the helper is evidently meant to give: the first two
      characters of a single word, else the first characters of the first
      and the last word, upper-cased; stray spaces are ignored. */
  function GetInitialsOfName(name: string): (r: string)
    ensures |r| <= 2
    ensures forall k :: 0 <= k < |r| ==> !IsLowerLetter(r[k])
    ensures |Words(name)| == 0 ==> r == ""
    ensures |Words(name)| >= 2 ==>
      r == [UpperChar(Words(name)[0][0]), UpperChar(Words(name)[|Words(name)| - 1][0])]
  {
    var ws := Words(name);
    if |ws| == 0 then ""
    else if |ws| == 1 then Upper(Prefix(ws[0], 2))
    else Upper([ws[0][0], ws[|ws| - 1][0]])
  }

  /** On the input that shows the discrepancy the corrected helper gives the
      intended initial, and it never produces the text `undefined`. */
  lemma GetInitialsOfNameTrailingSpace()
    ensures GetInitialsOfName("Ana ") == "AN"
  {
    SplitAnaSpace();
    assert ["Ana", ""][1..] == [""];
    assert Filter([""], (w: string) => w != "") == [];
    assert Words("Ana ") == ["Ana"];
  }

  /** Where every part is a word, the corrected helper and the source agree. */
  lemma GetInitialsAgree(name: string)
    requires name != ""
    requires forall k :: 0 <= k < |Split(name, ' ')| ==> Split(name, ' ')[k] != ""
    ensures GetInitialsOfName(name) == GetInitials(name)
  {
    var parts := Split(name, ' ');
    FilterAll(parts, (w: string) => w != "");
    assert Words(name) == parts;
    if |parts| == 1 {
      assert GetInitials(name) == Upper(Prefix(parts[0], 2));
    } else {
      assert FirstCharOrUndefined(parts[0]) == [parts[0][0]];
      assert FirstCharOrUndefined(parts[|parts| - 1]) == [parts[|parts| - 1][0]];
    }
  }
}

=== FILE: pagination.dfy ===
/** The client-side pagination hook (`usePagination`): a state record
    `{currentPage, pageSize}`, the values it derives from the current list,
    and the transitions behind its navigation callbacks and its
    "back to page 1 when the list shrinks" effect. */
module Pagination {
  import opened Common

  /** The page size a list starts with. */
  const DefaultPageSize := 20

  /** The page sizes the widget offers. */
  const PageSizeOptions: seq<int> := [10, 20, 50, 100]

  /** The hook's state. Pages are numbered from 1. */
  datatype State = State(currentPage: int, pageSize: int) {
    /** What every transition keeps: a page number from 1 up and a positive
        page size. */
    predicate Valid() {
      currentPage >= 1 && pageSize >= 1
    }
  }

  /** The state a list is first shown in. */
  function Initial(initialPageSize: int): (s: State)
    requires initialPageSize >= 1
    ensures s.Valid() && s.currentPage == 1 && s.pageSize == initialPageSize
  {
    State(1, initialPageSize)
  }

  /** `Math.max(1, Math.ceil(n / pageSize))`: the fewest pages of
      `pageSize` items that hold `n` items, and never fewer than one. */
  function TotalPages(n: nat, pageSize: int): (r: int)
    requires pageSize >= 1
    ensures r >= 1
    ensures n == 0 ==> r == 1
    ensures n > 0 ==> (r - 1) * pageSize < n <= r * pageSize
  {
    var q := (n + pageSize - 1) / pageSize;
    assert q * pageSize + (n + pageSize - 1) % pageSize == n + pageSize - 1;
    assert (q - 1) * pageSize == q * pageSize - pageSize;
    Max(1, q)
  }

  /** `items.slice(from, to)` for non-negative bounds: JavaScript clamps
      both bounds to the length and yields nothing when they cross. */
  function Slice<T>(items: seq<T>, from: nat, to: nat): (r: seq<T>)
    ensures from >= |items| ==> r == []
    ensures |r| == Max(0, Min(to, |items|) - from)
    ensures forall k :: 0 <= k < |r| ==> r[k] == items[from + k]
  {
    var a := Min(from, |items|);
    var b := Min(to, |items|);
    if a <= b then items[a..b] else []
  }

  /** The first index (0-based) of the current page. */
  function Offset(s: State): nat
    requires s.Valid()
  {
    (s.currentPage - 1) * s.pageSize
  }

  /** `paginatedData`: the page-size block of items that starts at
      `(currentPage - 1) * pageSize`; short on the last page and empty
      past the end of the list. */
  function PageItems<T>(items: seq<T>, s: State): (page: seq<T>)
    requires s.Valid()
    ensures |page| <= s.pageSize
    ensures Offset(s) >= |items| ==> page == []
    ensures Offset(s) < |items| ==> |page| == Min(s.pageSize, |items| - Offset(s))
    ensures forall k :: 0 <= k < |page| ==> page[k] == items[Offset(s) + k]
  {
    Slice(items, Offset(s), Offset(s) + s.pageSize)
  }

  /** `startIndex`: the 1-based position of the first item shown, or 0 for
      an empty list. */
  function StartIndex(n: nat, s: State): int
    requires s.Valid()
  {
    if n == 0 then 0 else Offset(s) + 1
  }

  /** `endIndex`: the 1-based position of the last item shown. */
  function EndIndex(n: nat, s: State): int
    requires s.Valid()
  {
    Min(s.currentPage * s.pageSize, n)
  }

  predicate HasNextPage(n: nat, s: State)
    requires s.Valid()
  {
    s.currentPage < TotalPages(n, s.pageSize)
  }

  predicate HasPrevPage(s: State) {
    s.currentPage > 1
  }

  /** The page is one the list actually has: the state the hook settles in
      once its shrink effect has run. */
  predicate InRange(n: nat, s: State) {
    s.Valid() && s.currentPage <= TotalPages(n, s.pageSize)
  }

  /** Everything the hook hands to a page and to the pagination widget. */
  datatype View<T> = View(
    paginatedData: seq<T>,
    currentPage: int,
    pageSize: int,
    totalItems: nat,
    totalPages: int,
    startIndex: int,
    endIndex: int,
    hasNextPage: bool,
    hasPrevPage: bool)

  /** The hook's return value for a list and a state. */
  function Derive<T>(items: seq<T>, s: State): (v: View<T>)
    requires s.Valid()
    ensures v.totalItems == |items| && v.currentPage == s.currentPage && v.pageSize == s.pageSize
    ensures v.totalPages >= 1
    ensures v.hasNextPage <==> v.currentPage < v.totalPages
    ensures v.hasPrevPage <==> v.currentPage > 1
    ensures |v.paginatedData| <= v.pageSize
    ensures v.totalItems == 0 ==> v.startIndex == 0 && v.endIndex == 0
    ensures v.paginatedData == PageItems(items, s) && v.totalPages == TotalPages(|items|, s.pageSize)
    ensures v.startIndex == StartIndex(|items|, s) && v.endIndex == EndIndex(|items|, s)
    ensures v.totalItems > 0 ==> v.startIndex == (s.currentPage - 1) * s.pageSize + 1
    ensures forall k :: 0 <= k < |v.paginatedData| ==> 1 <= v.startIndex && v.startIndex - 1 + k < |items| && v.paginatedData[k] == items[v.startIndex - 1 + k]
  {
    ProductPositive(s.currentPage, s.pageSize);
    View(PageItems(items, s), s.currentPage, s.pageSize, |items|, TotalPages(|items|, s.pageSize),
         StartIndex(|items|, s), EndIndex(|items|, s), HasNextPage(|items|, s), HasPrevPage(s))
  }

  /** The display bounds describe exactly the page shown: for a page the list
      has, `startIndex..endIndex` is a non-empty range inside `1..n` holding
      as many positions as `paginatedData` holds items. */
  lemma DisplayBounds<T>(items: seq<T>, s: State)
    requires InRange(|items|, s)
    ensures |items| == 0 ==> StartIndex(|items|, s) == 0 && EndIndex(|items|, s) == 0
    ensures |items| > 0 ==>
      && 1 <= StartIndex(|items|, s) <= EndIndex(|items|, s) <= |items|
      && EndIndex(|items|, s) - StartIndex(|items|, s) + 1 == |PageItems(items, s)|
  {
    var n := |items|;
    var tp := TotalPages(n, s.pageSize);
    if n > 0 {
      assert (s.currentPage - 1) * s.pageSize <= (tp - 1) * s.pageSize;
      assert s.currentPage * s.pageSize == Offset(s) + s.pageSize;
    }
  }

  /** Consecutive pages tile `1..n`: page 1 starts at 1, each page starts
      right after the previous one ends, and the last page ends at `n`. */
  lemma BoundsTile(n: nat, pageSize: int, p: int)
    requires pageSize >= 1 && n > 0
    requires 1 <= p < TotalPages(n, pageSize)
    ensures StartIndex(n, State(1, pageSize)) == 1
    ensures EndIndex(n, State(p, pageSize)) + 1 == StartIndex(n, State(p + 1, pageSize))
    ensures EndIndex(n, State(TotalPages(n, pageSize), pageSize)) == n
  {
    var tp := TotalPages(n, pageSize);
    MulMono(p, tp - 1, pageSize);
    assert Offset(State(p + 1, pageSize)) == p * pageSize;
  }

  /** Pages `1..k` of `items` laid end to end. */
  function PagesUpTo<T>(items: seq<T>, pageSize: int, k: nat): seq<T>
    requires pageSize >= 1
  {
    if k == 0 then [] else PagesUpTo(items, pageSize, k - 1) + PageItems(items, State(k, pageSize))
  }

  /** The first `k` pages are the first `k * pageSize` items (or all of
      them): no item is skipped and none is shown twice. */
  lemma {:induction false} PagesUpToIsPrefix<T>(items: seq<T>, pageSize: int, k: nat)
    requires pageSize >= 1
    ensures PagesUpTo(items, pageSize, k) == items[..Min(k * pageSize, |items|)]
  {
    if k > 0 {
      PagesUpToIsPrefix(items, pageSize, k - 1);
      PageIsSlice(items, pageSize, k);
      var lo := Min((k - 1) * pageSize, |items|);
      var hi := Min(k * pageSize, |items|);
      assert items[..lo] + items[lo..hi] == items[..hi];
    }
  }

  /** Page `k` is the slice between the ends of pages `k - 1` and `k`. */
  lemma PageIsSlice<T>(items: seq<T>, pageSize: int, k: int)
    requires pageSize >= 1 && k >= 1
    ensures Min((k - 1) * pageSize, |items|) <= Min(k * pageSize, |items|)
    ensures PageItems(items, State(k, pageSize)) == items[Min((k - 1) * pageSize, |items|)..Min(k * pageSize, |items|)]
  {
    MulPred(k, pageSize);
    var lo := Min((k - 1) * pageSize, |items|);
    var hi := Min(k * pageSize, |items|);
    assert Offset(State(k, pageSize)) == (k - 1) * pageSize;
    var page := PageItems(items, State(k, pageSize));
    assert |page| == hi - lo;
  }

  /** Paging through every page at a fixed size reproduces the list
      exactly. */
  lemma PagesReassemble<T>(items: seq<T>, pageSize: int)
    requires pageSize >= 1
    ensures PagesUpTo(items, pageSize, TotalPages(|items|, pageSize)) == items
  {
    var tp := TotalPages(|items|, pageSize);
    PagesUpToIsPrefix(items, pageSize, tp);
    assert Min(tp * pageSize, |items|) == |items|;
  }

  /** A page the list has is never blank unless the list is. */
  lemma PageNonEmpty<T>(items: seq<T>, s: State)
    requires InRange(|items|, s) && |items| > 0
    ensures |PageItems(items, s)| >= 1
  {
    var tp := TotalPages(|items|, s.pageSize);
    MulMono(s.currentPage - 1, tp - 1, s.pageSize);
  }

  /** `goToPage(page)`: the requested page clamped into `1..totalPages`. */
  function GoToPage(n: nat, s: State, page: int): (r: State)
    requires s.Valid()
    ensures InRange(n, r) && r.pageSize == s.pageSize
    ensures 1 <= page <= TotalPages(n, s.pageSize) ==> r.currentPage == page
    ensures page < 1 ==> r.currentPage == 1
    ensures page > TotalPages(n, s.pageSize) ==> r.currentPage == TotalPages(n, s.pageSize)
  {
    State(Max(1, Min(page, TotalPages(n, s.pageSize))), s.pageSize)
  }

  /** Asking for the same page twice changes nothing the second time. */
  lemma GoToPageIdempotent(n: nat, s: State, page: int)
    requires s.Valid()
    ensures GoToPage(n, GoToPage(n, s, page), page) == GoToPage(n, s, page)
  {
  }

  /** `nextPage()`: one page on when there is a next page, otherwise
      nothing. */
  function NextPage(n: nat, s: State): (r: State)
    requires s.Valid()
    ensures r.Valid() && r.pageSize == s.pageSize
    ensures HasNextPage(n, s) ==> r.currentPage == s.currentPage + 1
    ensures !HasNextPage(n, s) ==> r == s
  {
    if s.currentPage < TotalPages(n, s.pageSize) then s.(currentPage := s.currentPage + 1) else s
  }

  /** `prevPage()`: one page back when there is a previous page, otherwise
      nothing. */
  function PrevPage(s: State): (r: State)
    requires s.Valid()
    ensures r.Valid() && r.pageSize == s.pageSize
    ensures HasPrevPage(s) ==> r.currentPage == s.currentPage - 1
    ensures !HasPrevPage(s) ==> r == s
  {
    if s.currentPage > 1 then s.(currentPage := s.currentPage - 1) else s
  }

  /** Stepping keeps a settled state settled, and the steps undo each
      other. */
  lemma StepsStayInRange(n: nat, s: State)
    requires InRange(n, s)
    ensures InRange(n, NextPage(n, s)) && InRange(n, PrevPage(s))
    ensures HasNextPage(n, s) ==> PrevPage(NextPage(n, s)) == s
    ensures HasPrevPage(s) ==> NextPage(n, PrevPage(s)) == s
  {
  }

  /** `changePageSize(newSize)`: the new size, and back to page 1 whatever
      page was shown. */
  function ChangePageSize(s: State, newSize: int): (r: State)
    requires newSize >= 1
    ensures r.Valid() && r.pageSize == newSize && r.currentPage == 1
    ensures forall n: nat :: InRange(n, r)
  {
    State(1, newSize)
  }

  /** Every page size the widget offers is one `ChangePageSize` accepts. */
  lemma PageSizeOptionsPositive()
    ensures forall k :: 0 <= k < |PageSizeOptions| ==> PageSizeOptions[k] >= 1
    ensures DefaultPageSize in PageSizeOptions
  {
  }

  /** The effect that runs after the list changes: when the current page
      is past the last page it jumps back to page 1 (not to the last
      page); otherwise it leaves the state alone. */
  function ShrinkReset(n: nat, s: State): (r: State)
    requires s.Valid()
    ensures InRange(n, r) && r.pageSize == s.pageSize
    ensures s.currentPage > TotalPages(n, s.pageSize) ==> r.currentPage == 1
    ensures s.currentPage <= TotalPages(n, s.pageSize) ==> r == s
  {
    var tp := TotalPages(n, s.pageSize);
    if s.currentPage > tp && tp > 0 then s.(currentPage := 1) else s
  }

  /** The effect's `totalPages > 0` test never matters: it is always true. */
  lemma ShrinkGuardRedundant(n: nat, s: State)
    requires s.Valid()
    ensures ShrinkReset(n, s).currentPage == (if s.currentPage > TotalPages(n, s.pageSize) then 1 else s.currentPage)
  {
  }

  /** After the list is replaced and the effect has run, the hook shows a
      page the new list has; the page survives when the new list still
      reaches it. */
  lemma ReplaceListSettles(oldN: nat, newN: nat, s: State)
    requires InRange(oldN, s)
    ensures InRange(newN, ShrinkReset(newN, s))
    ensures newN >= oldN ==> ShrinkReset(newN, s) == s
  {
    var ps := s.pageSize;
    if newN >= oldN && oldN > 0 {
      var t0 := TotalPages(oldN, ps);
      var t1 := TotalPages(newN, ps);
      assert (t0 - 1) * ps < t1 * ps;
      ProductOrder(t0 - 1, t1, ps);
    }
  }

  lemma MulMono(a: int, b: int, c: int)
    requires a <= b && c >= 0
    ensures a * c <= b * c
  {
  }

  lemma MulPred(k: int, c: int)
    ensures (k - 1) * c + c == k * c
  {
  }

  lemma ProductPositive(a: int, b: int)
    requires a >= 1 && b >= 1
    ensures a * b >= b
  {
  }

  lemma ProductOrder(a: int, b: int, c: int)
    requires c >= 1 && a * c < b * c
    ensures a < b
  {
  }
}

=== FILE: pagination_controls.dfy ===
/** The pagination widget (`components/Pagination.jsx`): nothing for an
    empty list, otherwise the four navigation buttons and a window of at
    most five page numbers around the current page. */
module PaginationControls {
  import opened Common
  import opened Pagination

  /** The most page numbers the widget shows at once. */
  const MaxVisible := 5

  /** The integers `lo, lo + 1, ..., hi` (nothing when `hi < lo`). */
  function Range(lo: int, hi: int): (r: seq<int>)
    ensures |r| == Max(0, hi - lo + 1)
    ensures forall i :: 0 <= i < |r| ==> r[i] == lo + i
  {
    seq(Max(0, hi - lo + 1), i => lo + i)
  }

  /** The first page number of the window: two before the current page,
      pulled back when that would run past the last page, and never
      before page 1. */
  function WindowStart(currentPage: int, totalPages: int): int {
    var start := Max(1, currentPage - 2);
    var end := Min(totalPages, start + MaxVisible - 1);
    if end - start < MaxVisible - 1 then Max(1, end - MaxVisible + 1) else start
  }

  function WindowEnd(currentPage: int, totalPages: int): int {
    Min(totalPages, Max(1, currentPage - 2) + MaxVisible - 1)
  }

  /** The page numbers `getPageNumbers` returns. With few pages that is all
      of them; otherwise exactly five consecutive pages, whatever the
      current page, that include the current page when it is a real one
      and centre on it when there is room. */
  function Window(currentPage: int, totalPages: int): (r: seq<int>)
    ensures totalPages <= MaxVisible ==>
      |r| == Max(0, totalPages) && forall i :: 0 <= i < |r| ==> r[i] == i + 1
    ensures totalPages > MaxVisible ==> |r| == MaxVisible
    ensures forall i :: 0 <= i < |r| ==> r[i] == r[0] + i
    ensures forall i :: 0 <= i < |r| ==> 1 <= r[i] <= totalPages
    ensures 1 <= currentPage <= totalPages ==> currentPage in r
    ensures totalPages > MaxVisible && 3 <= currentPage <= totalPages - 2 ==> r[0] == currentPage - 2
  {
    if totalPages <= MaxVisible then
      var r := Range(1, totalPages);
      assert 1 <= currentPage <= totalPages ==> r[currentPage - 1] == currentPage;
      r
    else
      var r := Range(WindowStart(currentPage, totalPages), WindowEnd(currentPage, totalPages));
      assert 1 <= currentPage <= totalPages ==> r[currentPage - r[0]] == currentPage;
      r
  }

  /** `getPageNumbers` as written: a counting loop over `1..totalPages` when
      there are few pages, otherwise a counting loop over the computed
      window. */
  method GetPageNumbers(currentPage: int, totalPages: int) returns (pages: seq<int>)
    ensures pages == Window(currentPage, totalPages)
    ensures forall i, j :: 0 <= i < j < |pages| ==> pages[i] < pages[j]
  {
    pages := [];
    if totalPages <= MaxVisible {
      var i := 1;
      while i <= totalPages
        invariant 1 <= i <= Max(1, totalPages + 1)
        invariant |pages| == i - 1
        invariant forall k :: 0 <= k < |pages| ==> pages[k] == k + 1
      {
        pages := pages + [i];
        i := i + 1;
      }
    } else {
      var startPage := Max(1, currentPage - 2);
      var endPage := Min(totalPages, startPage + MaxVisible - 1);
      if endPage - startPage < MaxVisible - 1 {
        startPage := Max(1, endPage - MaxVisible + 1);
      }
      var i := startPage;
      while i <= endPage
        invariant startPage <= i <= endPage + 1
        invariant |pages| == i - startPage
        invariant forall k :: 0 <= k < |pages| ==> pages[k] == startPage + k
      {
        pages := pages + [i];
        i := i + 1;
      }
    }
  }

  /** What a page hands the widget as `onPageChange`: the hook's
      `goToPage`, the hook's raw `setCurrentPage` setter, or nothing at
      all (`undefined`, whose call throws a TypeError). */
  datatype PageHandler = GoToPageHandler | SetCurrentPageHandler | NoPageHandler

  /** What a page hands the widget as `onPageSizeChange`: the hook's
      `changePageSize`, or nothing at all. */
  datatype SizeHandler = ChangePageSizeHandler | NoSizeHandler

  /** The widget's props. Every page passes `currentPage` and
      `totalPages`; any other prop a page leaves out is `None`
      (`undefined`). */
  datatype Props = Props(
    currentPage: int,
    totalPages: int,
    pageSize: Option<int>,
    totalItems: Option<nat>,
    startIndex: Option<int>,
    endIndex: Option<int>,
    onPageChange: PageHandler,
    onPageSizeChange: SizeHandler,
    hasNextPage: Option<bool>,
    hasPrevPage: Option<bool>)

  /** The props as Clientes, Pagos and Rentas pass them: every field of the
      hook's return value, with `onPageChange={goToPage}` and
      `onPageSizeChange={changePageSize}`. */
  function WiredProps<T>(v: View<T>): Props {
    Props(v.currentPage, v.totalPages, Some(v.pageSize), Some(v.totalItems), Some(v.startIndex), Some(v.endIndex),
          GoToPageHandler, ChangePageSizeHandler, Some(v.hasNextPage), Some(v.hasPrevPage))
  }

  /** The props the RV parks page passes, `{...pagination}`: the hook's
      fields under their own names. The hook names its callbacks
      `goToPage` and `changePageSize`, so neither callback prop is set. */
  function SpreadProps<T>(v: View<T>): Props {
    Props(v.currentPage, v.totalPages, Some(v.pageSize), Some(v.totalItems), Some(v.startIndex), Some(v.endIndex),
          NoPageHandler, NoSizeHandler, Some(v.hasNextPage), Some(v.hasPrevPage))
  }

  /** The props the events page passes: the current page, the page count
      and the raw setter, and nothing else. */
  function EventosProps<T>(v: View<T>): Props {
    Props(v.currentPage, v.totalPages, None, None, None, None,
          SetCurrentPageHandler, NoSizeHandler, None, None)
  }

  /** A navigation button: the page its click asks for, and whether it is
      disabled (`disabled={!flag}`, so a missing flag disables it). */
  datatype Button = Button(target: int, disabled: bool)

  /** What the widget draws: the "Mostrando a..b de n" summary (a missing
      number prints as nothing), the first/previous buttons, the
      page-number buttons, the next/last buttons, and the two callbacks
      the clicks and the size selector call. */
  datatype Controls = Controls(
    shownFrom: Option<int>,
    shownTo: Option<int>,
    shownOf: Option<nat>,
    first: Button,
    prev: Button,
    pages: seq<int>,
    next: Button,
    last: Button,
    onPageChange: PageHandler,
    onPageSizeChange: SizeHandler)

  /** The widget for its props; `None` is the `return null`, which needs
      `totalItems === 0`, so a missing count still draws the widget. An
      arrow is enabled only by a flag that is `true`. */
  function Render(p: Props): (r: Option<Controls>)
    ensures r.None? <==> p.totalItems == Some(0)
    ensures r.Some? ==> r.value.pages == Window(p.currentPage, p.totalPages)
    ensures r.Some? ==> (!r.value.first.disabled <==> p.hasPrevPage == Some(true)) && r.value.prev.disabled == r.value.first.disabled
    ensures r.Some? ==> (!r.value.last.disabled <==> p.hasNextPage == Some(true)) && r.value.next.disabled == r.value.last.disabled
  {
    if p.totalItems == Some(0) then None
    else Some(Controls(
      p.startIndex, p.endIndex, p.totalItems,
      Button(1, p.hasPrevPage != Some(true)),
      Button(p.currentPage - 1, p.hasPrevPage != Some(true)),
      Window(p.currentPage, p.totalPages),
      Button(p.currentPage + 1, p.hasNextPage != Some(true)),
      Button(p.totalPages, p.hasNextPage != Some(true)),
      p.onPageChange, p.onPageSizeChange))
  }

  /** What a click does to the hook's state: the callback's effect, or
      `Threw` when the callback is missing. */
  datatype Outcome = Moved(state: State) | Threw

  /** A click that calls `onPageChange(page)`. */
  function PageClick(h: PageHandler, n: nat, s: State, page: int): (r: Outcome)
    requires s.Valid()
    ensures r.Threw? <==> h.NoPageHandler?
    ensures r.Moved? ==> r.state.pageSize == s.pageSize
    ensures h.GoToPageHandler? ==> r == Moved(GoToPage(n, s, page))
    ensures h.SetCurrentPageHandler? ==> r.Moved? && r.state.currentPage == page
  {
    match h
    case GoToPageHandler => Moved(GoToPage(n, s, page))
    case SetCurrentPageHandler => Moved(s.(currentPage := page))
    case NoPageHandler => Threw
  }

  /** A choice in the size selector, which calls `onPageSizeChange(size)`. */
  function SizeClick(h: SizeHandler, s: State, size: int): (r: Outcome)
    requires size >= 1
    ensures r.Threw? <==> h.NoSizeHandler?
    ensures h.ChangePageSizeHandler? ==> r == Moved(ChangePageSize(s, size))
  {
    match h
    case ChangePageSizeHandler => Moved(ChangePageSize(s, size))
    case NoSizeHandler => Threw
  }

  /** With the props wired as Clientes, Pagos and Rentas wire them, clicks
      go through `goToPage`. A button is disabled exactly when its click
      would leave the page where it is; an enabled "previous" or "next"
      click is `prevPage` or `nextPage`, "first" and "last" reach page 1
      and the last page, a page-number click shows that page, and every
      offered size is `changePageSize`. */
  lemma ButtonsMatchNavigation<T>(items: seq<T>, s: State)
    requires InRange(|items|, s) && |items| > 0
    ensures var c := Render(WiredProps(Derive(items, s))).value;
      var n := |items|;
      && (c.first.disabled <==> PageClick(c.onPageChange, n, s, c.first.target) == Moved(s))
      && (c.prev.disabled <==> PageClick(c.onPageChange, n, s, c.prev.target) == Moved(s))
      && (c.next.disabled <==> PageClick(c.onPageChange, n, s, c.next.target) == Moved(s))
      && (c.last.disabled <==> PageClick(c.onPageChange, n, s, c.last.target) == Moved(s))
      && (!c.prev.disabled ==> PageClick(c.onPageChange, n, s, c.prev.target) == Moved(PrevPage(s)))
      && (!c.next.disabled ==> PageClick(c.onPageChange, n, s, c.next.target) == Moved(NextPage(n, s)))
      && PageClick(c.onPageChange, n, s, c.first.target) == Moved(s.(currentPage := 1))
      && PageClick(c.onPageChange, n, s, c.last.target) == Moved(s.(currentPage := TotalPages(n, s.pageSize)))
      && (forall p :: p in c.pages ==> PageClick(c.onPageChange, n, s, p) == Moved(s.(currentPage := p)))
      && (forall k :: 0 <= k < |PageSizeOptions| ==>
            SizeClick(c.onPageSizeChange, s, PageSizeOptions[k]) == Moved(ChangePageSize(s, PageSizeOptions[k])))
  {
  }

  /** With the props wired in full, the summary line agrees with the page
      shown. */
  lemma SummaryMatchesPage<T>(items: seq<T>, s: State)
    requires InRange(|items|, s) && |items| > 0
    ensures var c := Render(WiredProps(Derive(items, s))).value;
      && c.shownOf == Some(|items|)
      && c.shownFrom.Some? && c.shownTo.Some?
      && 1 <= c.shownFrom.value <= c.shownTo.value <= |items|
      && c.shownTo.value - c.shownFrom.value + 1 == |PageItems(items, s)|
  {
    DisplayBounds(items, s);
  }

  /** On the RV parks page the widget draws the same buttons and summary
      as a fully wired one, but every click on an arrow or a page number,
      and every choice of page size, throws. */
  lemma SpreadClicksThrow<T>(items: seq<T>, s: State, page: int, size: int)
    requires InRange(|items|, s) && |items| > 0 && size >= 1
    ensures var v := Derive(items, s);
      var c := Render(SpreadProps(v)).value;
      && c == Render(WiredProps(v)).value.(onPageChange := NoPageHandler, onPageSizeChange := NoSizeHandler)
      && PageClick(c.onPageChange, |items|, s, page) == Threw
      && SizeClick(c.onPageSizeChange, s, size) == Threw
  {
  }

  /** Twenty-one parks at the default twenty per page, showing page 1: the
      "next" arrow is enabled, yet clicking it throws instead of showing
      page 2. */
  lemma RvParksNextThrows()
    ensures var items := seq(21, i => i);
      var s := Initial(DefaultPageSize);
      var c := Render(SpreadProps(Derive(items, s))).value;
      && TotalPages(|items|, s.pageSize) == 2
      && !c.next.disabled
      && PageClick(c.onPageChange, |items|, s, c.next.target) == Threw
  {
  }

  /** On the events page the four arrows are always disabled and the
      summary prints no numbers, whatever page is shown. A page-number
      click still lands on its page, and choosing a page size throws. */
  lemma EventosArrowsDisabled<T>(items: seq<T>, s: State, size: int)
    requires InRange(|items|, s) && |items| > 0 && size >= 1
    ensures var c := Render(EventosProps(Derive(items, s))).value;
      && c.first.disabled && c.prev.disabled && c.next.disabled && c.last.disabled
      && c.shownFrom.None? && c.shownTo.None? && c.shownOf.None?
      && (forall p :: p in c.pages ==> PageClick(c.onPageChange, |items|, s, p) == Moved(s.(currentPage := p)))
      && SizeClick(c.onPageSizeChange, s, size) == Threw
  {
  }

  /** Forty-one events at twenty per page, showing page 2 of 3: the hook
      reports a previous and a next page, yet every arrow is disabled,
      where the wired widget enables all four. */
  lemma EventosPageTwoOfThree()
    ensures var items := seq(41, i => i);
      var s := State(2, DefaultPageSize);
      var v := Derive(items, s);
      var c := Render(EventosProps(v)).value;
      var w := Render(WiredProps(v)).value;
      && v.totalPages == 3 && v.hasPrevPage && v.hasNextPage
      && c.first.disabled && c.prev.disabled && c.next.disabled && c.last.disabled
      && !w.first.disabled && !w.prev.disabled && !w.next.disabled && !w.last.disabled
  {
  }
}

=== FILE: pagos.dfy ===
/** The payment page (`pages/Pagos.jsx`): the rentals offered for payment,
    the payment form's validator with its outstanding-balance check, the
    page state that decides when that check applies, and the list's search,
    filters and period list. Amounts are integer cents. */
module Pagos {
  import opened Common
  import opened Text

  /** A rental as the page holds it. `totalPagado` is missing until a
      payment has been recorded. */
  datatype Renta = Renta(idRenta: int, montoTotal: int, totalPagado: Option<int>, estatusPago: string)

  /** The rentals `loadRentas` keeps for the rental selector: those neither
      cancelled nor fully paid. */
  predicate Payable(r: Renta) {
    r.estatusPago != "Cancelado" && r.estatusPago != "Pagado"
  }

  function PayableRentas(rentas: seq<Renta>): (r: seq<Renta>)
    ensures forall i :: 0 <= i < |r| ==> r[i] in rentas && r[i].estatusPago !in {"Cancelado", "Pagado"}
    ensures forall i :: 0 <= i < |rentas| && rentas[i].estatusPago !in {"Cancelado", "Pagado"} ==> rentas[i] in r
  {
    Filter(rentas, Payable)
  }

  /** What is still owed on a rental: its total less what has been paid
      (nothing paid when the field is missing). */
  function Debt(r: Renta): int {
    r.montoTotal - r.totalPagado.GetOr(0)
  }

  /** The amount box: blank, or a number (in cents) typed or pre-filled. */
  datatype Amount = Blank | Cents(value: int)

  /** The payment form. A blank rental or date is `None`/the empty string. */
  datatype Form = Form(idRenta: Option<int>, fechaPago: string, monto: Amount, metodoPago: string, referencia: string)

  datatype Field = IdRenta | FechaPago | Monto | MetodoPago

  /** An error message; the balance message shows the debt, formatted by
      `formatCurrency`. */
  datatype Message = Text(text: string) | ExceedsDebt(debt: int)

  const IdRentaMsg := "Seleccione una renta"
  const FechaPagoMsg := "Ingrese la fecha de pago"
  const MontoMsg := "Ingrese un monto válido mayor a 0"
  const MetodoPagoMsg := "Seleccione un método de pago"

  /** The `monto` message: the balance message when a rental is selected
      and the amount is more than its debt (it replaces the "amount must be
      positive" message), else that message for a blank or non-positive
      amount. */
  function MontoError(m: Amount, selected: Option<Renta>): Option<Message> {
    if selected.Some? && m.Cents? && m.value > Debt(selected.value) then Some(ExceedsDebt(Debt(selected.value)))
    else if m.Blank? || m.value <= 0 then Some(Text(MontoMsg))
    else None
  }

  function FieldError(f: Form, selected: Option<Renta>, k: Field): Option<Message> {
    match k
    case IdRenta => if f.idRenta.None? then Some(Text(IdRentaMsg)) else None
    case FechaPago => if f.fechaPago == "" then Some(Text(FechaPagoMsg)) else None
    case Monto => MontoError(f.monto, selected)
    case MetodoPago => if f.metodoPago == "" then Some(Text(MetodoPagoMsg)) else None
  }

  const AllFields: set<Field> := {IdRenta, FechaPago, Monto, MetodoPago}

  /** `validateForm()` with `selected` the rental whose details the form
      shows (`selectedRentaInfo`). */
  function Validate(f: Form, selected: Option<Renta>): (errors: map<Field, Message>)
    ensures forall k :: k in errors <==> FieldError(f, selected, k).Some?
  {
    map k | k in AllFields && FieldError(f, selected, k).Some? :: FieldError(f, selected, k).value
  }

  /** The rules in words: a rental, a date and a method must be given; the
      amount must be given and positive; and with a rental selected it may
      not exceed what is still owed. */
  lemma ValidateRules(f: Form, selected: Option<Renta>)
    ensures IdRenta in Validate(f, selected) <==> f.idRenta.None?
    ensures FechaPago in Validate(f, selected) <==> f.fechaPago == ""
    ensures MetodoPago in Validate(f, selected) <==> f.metodoPago == ""
    ensures Monto in Validate(f, selected) <==>
      f.monto.Blank? || f.monto.value <= 0 || (selected.Some? && f.monto.value > Debt(selected.value))
    ensures selected.Some? && f.monto.Cents? && f.monto.value > Debt(selected.value) ==>
      Validate(f, selected)[Monto] == ExceedsDebt(Debt(selected.value))
  {
    var e := Validate(f, selected);
    assert IdRenta in e <==> FieldError(f, selected, IdRenta).Some?;
    assert FechaPago in e <==> FieldError(f, selected, FechaPago).Some?;
    assert Monto in e <==> FieldError(f, selected, Monto).Some?;
    assert MetodoPago in e <==> FieldError(f, selected, MetodoPago).Some?;
  }

  /** An amount of 0 is always rejected, and so is one above the debt of the
      selected rental; an amount from 1 up to the debt passes the amount
      rules. */
  lemma AmountBounds(f: Form, r: Renta)
    ensures f.monto == Cents(0) ==> Monto in Validate(f, Some(r))
    ensures f.monto.Cents? && f.monto.value > Debt(r) ==> Monto in Validate(f, Some(r))
    ensures f.monto.Cents? && 0 < f.monto.value <= Debt(r) ==> Monto !in Validate(f, Some(r))
  {
    ValidateRules(f, Some(r));
  }

  /** A request `handleSubmit` sends. */
  datatype Body = Body(idRenta: int, fechaPago: string, monto: int, metodoPago: string, referencia: Option<string>)
  datatype Request = Create(body: Body) | Update(id: int, body: Body)

  /** `handleSubmit`: nothing is sent unless the form is valid; the
      reference is sent as `null` when blank. */
  function Submit(f: Form, selected: Option<Renta>, editing: Option<int>): (r: Option<Request>)
    ensures r.Some? <==> Validate(f, selected) == map[]
    ensures r.Some? ==> f.monto.Cents? && f.idRenta.Some?
    ensures r.Some? && f.monto.Cents? && f.idRenta.Some? ==> r.value.body.monto == f.monto.value && r.value.body.idRenta == f.idRenta.value
    ensures r.Some? ==> (r.value.body.referencia.None? <==> f.referencia == "")
    ensures r.Some? ==> r.value.body.fechaPago == f.fechaPago && r.value.body.metodoPago == f.metodoPago
    ensures r.Some? ==> (r.value.Update? <==> editing.Some?)
    ensures r.Some? && editing.Some? ==> r.value.Update? && r.value.id == editing.value
  {
    ValidateRules(f, selected);
    if Validate(f, selected) != map[] then None
    else
      var body := Body(f.idRenta.value, f.fechaPago, f.monto.value, f.metodoPago,
                       if f.referencia == "" then None else Some(f.referencia));
      match editing
      case Some(id) => Some(Update(id, body))
      case None => Some(Create(body))
  }

  /** The part of the page that decides which checks apply: the form, the
      selected rental's details, the payment being edited, the error map and
      whether the modal is open. */
  datatype Page = Page(form: Form, selected: Option<Renta>, editing: Option<int>, errors: map<Field, Message>, open: bool)

  /** `resetForm()`; `today` is the date the source reads from the clock. */
  function BlankForm(today: string): Form {
    Form(None, today, Blank, "Efectivo", "")
  }

  function Initial(today: string): Page {
    Page(BlankForm(today), None, None, map[], false)
  }

  /** The "Registrar Pago" button. */
  function OpenCreate(p: Page): Page {
    p.(open := true)
  }

  /** A payment as listed. The client's name and the spot come from the
      payment's rental (`pago.renta`) and are missing when it is. */
  datatype Pago = Pago(
    idPago: int,
    idRenta: int,
    fechaPago: string,
    monto: int,
    metodoPago: string,
    referencia: Option<string>,
    periodo: Option<string>,
    clienteNombre: Option<string>,
    spot: Option<RentalSpot>)

  /** `handleEdit(pago)`: loads the payment into the form and opens the
      modal. It does not touch the selected rental. A zero amount shows as
      blank (`pago.monto || ''`), and so does a zero rental id. */
  function HandleEdit(p: Page, pago: Pago): Page {
    p.(form := Form(if pago.idRenta == 0 then None else Some(pago.idRenta), pago.fechaPago, if pago.monto == 0 then Blank else Cents(pago.monto),
                    if pago.metodoPago == "" then "Efectivo" else pago.metodoPago, pago.referencia.GetOr("")),
       editing := Some(pago.idPago), open := true)
  }

  /** `i` is the position of the first rental with the given id. */
  predicate FirstWithId(rentas: seq<Renta>, id: int, i: int) {
    0 <= i < |rentas| && rentas[i].idRenta == id && forall j :: 0 <= j < i ==> rentas[j].idRenta != id
  }

  /** The first rental with the given id (`rentas.find`). */
  function Find(rentas: seq<Renta>, id: int): (r: Option<Renta>)
    ensures r.Some? ==> exists i :: FirstWithId(rentas, id, i) && rentas[i] == r.value
    ensures r.None? ==> forall i :: 0 <= i < |rentas| ==> rentas[i].idRenta != id
  {
    if |rentas| == 0 then None
    else if rentas[0].idRenta == id then
      assert FirstWithId(rentas, id, 0);
      Some(rentas[0])
    else
      var r := Find(rentas[1..], id);
      FindShift(rentas, id, r);
      r
  }

  /** A match found after a non-matching head is the first match of the
      whole list, one position on. */
  lemma FindShift(rentas: seq<Renta>, id: int, r: Option<Renta>)
    requires |rentas| > 0 && rentas[0].idRenta != id
    requires r.Some? ==> exists i :: FirstWithId(rentas[1..], id, i) && rentas[1..][i] == r.value
    ensures r.Some? ==> exists i :: FirstWithId(rentas, id, i) && rentas[i] == r.value
  {
    if r.Some? {
      var i :| FirstWithId(rentas[1..], id, i) && rentas[1..][i] == r.value;
      assert FirstWithId(rentas, id, i + 1);
    }
  }

  /** `handleRentaChange(idRenta)`: selects the first rental with that id
      (none when there is none), pre-fills the amount with its total (blank
      when it has none or a zero total, `monto_total || ''`) and clears
      every error; the other fields are kept. `None` is the selector's blank
      choice. */
  function HandleRentaChange(p: Page, rentas: seq<Renta>, idRenta: Option<int>): (q: Page)
    ensures q.errors == map[]
    ensures q.form.idRenta == idRenta
    ensures q.form.fechaPago == p.form.fechaPago && q.form.metodoPago == p.form.metodoPago
    ensures q.form.referencia == p.form.referencia
    ensures q.selected.Some? ==> idRenta.Some? && exists i :: FirstWithId(rentas, idRenta.value, i) && rentas[i] == q.selected.value
    ensures idRenta.Some? && (exists i :: 0 <= i < |rentas| && rentas[i].idRenta == idRenta.value) ==> q.selected.Some?
    ensures q.selected.Some? && q.selected.value.montoTotal != 0 ==> q.form.monto == Cents(q.selected.value.montoTotal)
    ensures q.selected.Some? && q.selected.value.montoTotal == 0 ==> q.form.monto == Blank
    ensures q.selected.None? ==> q.form.monto == Blank
    ensures q.editing == p.editing && q.open == p.open
  {
    var found := if idRenta.Some? then Find(rentas, idRenta.value) else None;
    var monto := if found.Some? && found.value.montoTotal != 0 then Cents(found.value.montoTotal) else Blank;
    p.(selected := found, form := p.form.(idRenta := idRenta, monto := monto), errors := map[])
  }

  /** Choosing the same rental twice is choosing it once. The pre-filled
      total passes the amount rule exactly when nothing has been paid on
      the rental yet: after a partial payment the total is more than the
      debt, and the balance message appears. */
  lemma RentaChangePrefill(p: Page, rentas: seq<Renta>, idRenta: Option<int>)
    ensures HandleRentaChange(HandleRentaChange(p, rentas, idRenta), rentas, idRenta) == HandleRentaChange(p, rentas, idRenta)
    ensures var q := HandleRentaChange(p, rentas, idRenta);
      q.selected.Some? && q.selected.value.montoTotal > 0 ==>
        (Monto in Validate(q.form, q.selected) <==> q.selected.value.totalPagado.GetOr(0) > 0)
  {
    var q := HandleRentaChange(p, rentas, idRenta);
    ValidateRules(q.form, q.selected);
  }

  /** A submit attempt: the errors are recorded; a valid form is sent, the
      modal closes and the form is reset. */
  function HandleSubmit(p: Page, today: string): (r: (Page, Option<Request>))
    ensures r.1 == Submit(p.form, p.selected, p.editing)
    ensures r.1.None? ==> r.0.errors == Validate(p.form, p.selected) && r.0.form == p.form
  {
    var req := Submit(p.form, p.selected, p.editing);
    if req.None? then (p.(errors := Validate(p.form, p.selected)), None)
    else (Initial(today), req)
  }

  /** Closing the modal resets the form. */
  function Close(p: Page, today: string): Page {
    Initial(today)
  }

  /** The page's standing facts: a closed modal has no selection and no
      payment in edit, and a payment in edit never has a selected rental
      (the rental selector is disabled while editing). */
  predicate Consistent(p: Page) {
    && (!p.open ==> p.selected.None? && p.editing.None?)
    && (p.editing.Some? ==> p.selected.None?)
  }

  /** A user event. The edit button is only reachable with the modal
      closed, and the rental selector only in an open modal that is not
      editing. */
  datatype Event =
    | ClickCreate
    | ClickEdit(pago: Pago)
    | ChooseRenta(rentas: seq<Renta>, idRenta: Option<int>)
    | ClickSubmit
    | ClickClose

  function Step(p: Page, e: Event, today: string): Page {
    match e
    case ClickCreate => OpenCreate(p)
    case ClickEdit(pago) => if p.open then p else HandleEdit(p, pago)
    case ChooseRenta(rentas, id) => if !p.open || p.editing.Some? then p else HandleRentaChange(p, rentas, id)
    case ClickSubmit => HandleSubmit(p, today).0
    case ClickClose => Close(p, today)
  }

  /** Every event keeps the page consistent. */
  lemma StepConsistent(p: Page, e: Event, today: string)
    requires Consistent(p)
    ensures Consistent(Step(p, e, today))
  {
  }

  /** Hence editing never checks the outstanding balance: in a consistent
      page with a payment in edit, validation is the same as with no rental
      selected. */
  lemma EditingSkipsBalance(p: Page)
    requires Consistent(p) && p.editing.Some?
    ensures Validate(p.form, p.selected) == Validate(p.form, None)
    ensures p.form.monto.Cents? && p.form.monto.value > 0 ==> Monto !in Validate(p.form, p.selected)
  {
  }

  /** `periodos`: the distinct non-empty periods, newest first (sorted, then
      reversed). */
  function Periodos(pagos: seq<Pago>): (r: seq<string>)
    ensures StrictlyDescending(r)
    ensures forall x :: x in r <==> x != "" && exists i :: 0 <= i < |pagos| && pagos[i].periodo == Some(x)
  {
    if |pagos| == 0 then []
    else
      var rest := Periodos(pagos[1..]);
      match pagos[0].periodo
      case Some(p) => if p == "" then rest else InsertDescending(rest, p)
      case None => rest
  }

  /** Each string sorts before the one in front of it. */
  predicate StrictlyDescending(xs: seq<string>) {
    forall i, j :: 0 <= i < j < |xs| ==> Before(xs[j], xs[i])
  }

  /** Insert `x` at its place in a strictly descending list, unless it is
      already there. */
  function InsertDescending(xs: seq<string>, x: string): (r: seq<string>)
    requires StrictlyDescending(xs)
    ensures StrictlyDescending(r)
    ensures forall y :: y in r <==> y in xs || y == x
  {
    if |xs| == 0 then [x]
    else if xs[0] == x then xs
    else if Before(xs[0], x) then
      DescendingHead(xs, x);
      [x] + xs
    else
      BeforeTotal(xs[0], x);
      var rest := InsertDescending(xs[1..], x);
      assert forall y :: y in rest ==> Before(y, xs[0]) by {
        forall y | y in rest ensures Before(y, xs[0]) {
          if y != x {
            var k :| 1 <= k < |xs| && xs[k] == y;
          }
        }
      }
      [xs[0]] + rest
  }

  lemma DescendingHead(xs: seq<string>, x: string)
    requires StrictlyDescending(xs) && |xs| > 0 && Before(xs[0], x)
    ensures StrictlyDescending([x] + xs)
  {
    forall j | 0 <= j < |xs| ensures Before(xs[j], x) {
      if j > 0 {
        BeforeTransitive(xs[j], xs[0], x);
      }
    }
  }

  /** Strictly descending lists hold no string twice. */
  lemma DescendingDistinct(xs: seq<string>)
    requires StrictlyDescending(xs)
    ensures forall i, j :: 0 <= i < j < |xs| ==> xs[i] != xs[j]
  {
    forall i, j | 0 <= i < j < |xs| ensures xs[i] != xs[j] {
      if xs[i] == xs[j] {
        BeforeIrreflexive(xs[i]);
      }
    }
  }

  /** The list's search: the client name or the spot's `codigo` (missing
      counts as empty) contain the term ignoring case, or the reference
      (when present) does. The row shows the spot's `codigo_spot`, which
      this search does not read. */
  predicate MatchesSearch(p: Pago, term: string) {
    || IncludesIgnoringCase(p.clienteNombre.GetOr(""), term)
    || IncludesIgnoringCase(SearchedCode(p.spot), term)
    || (p.referencia.Some? && IncludesIgnoringCase(p.referencia.value, term))
  }

  /** The list's filters: a search term, a rental (`None` for all) and a
      period (empty for all). */
  datatype Filters = Filters(term: string, renta: Option<int>, periodo: string)

  predicate Keep(p: Pago, f: Filters) {
    && MatchesSearch(p, f.term)
    && (f.renta.None? || p.idRenta == f.renta.value)
    && (f.periodo == "" || p.periodo == Some(f.periodo))
  }

  /** `filteredPagos`: the payments that pass all three filters at once, in
      list order. */
  function FilterPagos(pagos: seq<Pago>, f: Filters): (r: seq<Pago>)
    ensures forall i :: 0 <= i < |r| ==> r[i] in pagos && Keep(r[i], f)
    ensures forall i :: 0 <= i < |pagos| && Keep(pagos[i], f) ==> pagos[i] in r
  {
    Filter(pagos, (p: Pago) => Keep(p, f))
  }

  /** With every filter cleared (the "Limpiar" button), the list is shown
      whole and in order. */
  lemma ClearedFiltersKeepAll(pagos: seq<Pago>)
    ensures FilterPagos(pagos, Filters("", None, "")) == pagos
  {
    forall p: Pago | p in pagos ensures Keep(p, Filters("", None, "")) {
      IncludesEmpty(Lower(p.clienteNombre.GetOr("")));
    }
    FilterAll(pagos, (p: Pago) => Keep(p, Filters("", None, "")));
  }

  /** Narrowing by a period keeps only that period's payments; with the
      search and rental filters cleared it keeps exactly them. */
  lemma PeriodFilter(pagos: seq<Pago>, periodo: string, p: Pago)
    requires periodo != "" && p in pagos
    ensures p in FilterPagos(pagos, Filters("", None, periodo)) <==> p.periodo == Some(periodo)
  {
    IncludesEmpty(Lower(p.clienteNombre.GetOr("")));
  }

  /** A payment by Ana for the rental of spot A01; the spot, as the backend
      sends it, carries only `codigo_spot`. */
  const AnaPaysA01 := Pago(1, 1, "2024-01-05", 150000, "Efectivo", None, Some("2024-01"), Some("Ana"), Some(RentalSpot(None, Some("A01"))))

  /** The search as written misses a payment by the spot code its row
      shows: searching "A01" drops the payment whose row reads
      "Spot: A01". */
  lemma ShownCodeNotFound()
    ensures ShownCode(AnaPaysA01.spot) == "A01"
    ensures FilterPagos([AnaPaysA01], Filters("A01", None, "")) == []
  {
    var hay := Lower("Ana");
    var needle := Lower("A01");
    assert hay[1] == 'n' && needle[1] == '0';
    assert !OccursAt(hay, needle, 0) by { assert hay[0..3][1] != needle[1]; }
    assert !Keep(AnaPaysA01, Filters("A01", None, ""));
  }

  /** The search the rows invite: the client name or the spot code the row
      shows, or the reference. */
  predicate MatchesShownSearch(p: Pago, term: string) {
    || IncludesIgnoringCase(p.clienteNombre.GetOr(""), term)
    || IncludesIgnoringCase(SpotCode(p.spot), term)
    || (p.referencia.Some? && IncludesIgnoringCase(p.referencia.value, term))
  }

  predicate KeepShown(p: Pago, f: Filters) {
    && MatchesShownSearch(p, f.term)
    && (f.renta.None? || p.idRenta == f.renta.value)
    && (f.periodo == "" || p.periodo == Some(f.periodo))
  }

  /** The three filters with the search over the shown spot code. */
  function FilterPagosByShownCode(pagos: seq<Pago>, f: Filters): (r: seq<Pago>)
    ensures forall i :: 0 <= i < |r| ==> r[i] in pagos && KeepShown(r[i], f)
    ensures forall i :: 0 <= i < |pagos| && KeepShown(pagos[i], f) ==> pagos[i] in r
  {
    Filter(pagos, (p: Pago) => KeepShown(p, f))
  }

  /** Searching for the spot code a row shows finds that row, in any case,
      under the same rental and period filters; and where a spot's `codigo`
      and `codigo_spot` agree, both searches keep the same payments. */
  lemma ShownCodeFound(pagos: seq<Pago>, i: int, f: Filters)
    requires 0 <= i < |pagos| && ShownCode(pagos[i].spot) != "-"
    requires f.renta.None? || pagos[i].idRenta == f.renta.value
    requires f.periodo == "" || pagos[i].periodo == Some(f.periodo)
    ensures pagos[i] in FilterPagosByShownCode(pagos, f.(term := ShownCode(pagos[i].spot)))
    ensures pagos[i] in FilterPagosByShownCode(pagos, f.(term := Upper(ShownCode(pagos[i].spot))))
    ensures SearchedCode(pagos[i].spot) == SpotCode(pagos[i].spot) ==>
      (Keep(pagos[i], f) <==> KeepShown(pagos[i], f))
  {
    var code := SpotCode(pagos[i].spot);
    IncludesBounds(Lower(code), Lower(code));
    IncludesIgnoringCaseOfTerm(code, code);
  }
}

=== FILE: rentas.dfy ===
/** The rentals page (`pages/Rentas.jsx`): its search, the four statistics
    cards, the payment-status badge colours, the "Finalizar" action, the
    guard in front of the amount calculation, and the park selector that
    resets the chosen spot. */
module Rentas {
  import opened Common
  import opened Text

  /** A rental as listed. The client's name and the spot come from nested
      records that may be missing; a missing or empty end date means the
      rental is still running. */
  datatype Renta = Renta(
    idRenta: int,
    clienteNombre: Option<string>,
    spot: Option<RentalSpot>,
    estatusPago: string,
    fechaFin: Option<string>)

  /** `filteredRentas`: the client name or the spot's `codigo`, a missing
      one counting as empty, contains the term ignoring case. The row shows
      the spot's `codigo_spot` instead, so the spot half of this search
      finds only what a spot's `codigo` holds. */
  predicate MatchesSearch(r: Renta, term: string) {
    || IncludesIgnoringCase(r.clienteNombre.GetOr(""), term)
    || IncludesIgnoringCase(SearchedCode(r.spot), term)
  }

  function FilterRentas(rentas: seq<Renta>, term: string): (r: seq<Renta>)
    ensures forall i :: 0 <= i < |r| ==> r[i] in rentas && MatchesSearch(r[i], term)
    ensures forall i :: 0 <= i < |rentas| && MatchesSearch(rentas[i], term) ==> rentas[i] in r
  {
    Filter(rentas, (x: Renta) => MatchesSearch(x, term))
  }

  /** An empty search lists every rental, in order: the missing names count
      as empty text, which contains the empty term. */
  lemma EmptySearchKeepsAll(rentas: seq<Renta>)
    ensures FilterRentas(rentas, "") == rentas
  {
    forall x: Renta | x in rentas ensures MatchesSearch(x, "") {
      IncludesEmpty(Lower(x.clienteNombre.GetOr("")));
    }
    FilterAll(rentas, (x: Renta) => MatchesSearch(x, ""));
  }

  /** The search does not care how the term is capitalised. */
  lemma SearchIgnoresCase(r: Renta, term: string)
    ensures MatchesSearch(r, Upper(term)) == MatchesSearch(r, term)
    ensures MatchesSearch(r, Lower(term)) == MatchesSearch(r, term)
  {
    IncludesIgnoringCaseOfTerm(r.clienteNombre.GetOr(""), term);
    IncludesIgnoringCaseOfTerm(SearchedCode(r.spot), term);
  }

  /** A rental for client Ana on a spot that, as the backend sends it,
      carries only `codigo_spot = "A01"`. */
  const AnaOnA01 := Renta(1, Some("Ana"), Some(RentalSpot(None, Some("A01"))), Pendiente, None)

  /** The search as written misses a rental by the code its row shows:
      searching "A01" drops the rental whose row reads "A01". */
  lemma ShownCodeNotFound()
    ensures ShownCode(AnaOnA01.spot) == "A01"
    ensures FilterRentas([AnaOnA01], "A01") == []
  {
    var hay := Lower("Ana");
    var needle := Lower("A01");
    assert hay[1] == 'n' && needle[1] == '0';
    assert !OccursAt(hay, needle, 0) by { assert hay[0..3][1] != needle[1]; }
    assert !MatchesSearch(AnaOnA01, "A01");
  }

  /** The search the placeholder "Buscar por cliente o código de spot"
      describes: the client name or the spot code the row shows. */
  predicate MatchesShownSearch(r: Renta, term: string) {
    || IncludesIgnoringCase(r.clienteNombre.GetOr(""), term)
    || IncludesIgnoringCase(SpotCode(r.spot), term)
  }

  function FilterRentasByShownCode(rentas: seq<Renta>, term: string): (r: seq<Renta>)
    ensures forall i :: 0 <= i < |r| ==> r[i] in rentas && MatchesShownSearch(r[i], term)
    ensures forall i :: 0 <= i < |rentas| && MatchesShownSearch(rentas[i], term) ==> rentas[i] in r
  {
    Filter(rentas, (x: Renta) => MatchesShownSearch(x, term))
  }

  /** Searching for the code a row shows finds that row, whatever the
      case the code is typed in; and where a spot's `codigo` and
      `codigo_spot` agree, both searches keep the same rentals. */
  lemma ShownCodeFound(rentas: seq<Renta>, i: int, term: string)
    requires 0 <= i < |rentas| && ShownCode(rentas[i].spot) != "-"
    ensures rentas[i] in FilterRentasByShownCode(rentas, ShownCode(rentas[i].spot))
    ensures rentas[i] in FilterRentasByShownCode(rentas, Upper(ShownCode(rentas[i].spot)))
    ensures SearchedCode(rentas[i].spot) == SpotCode(rentas[i].spot) ==>
      (MatchesSearch(rentas[i], term) <==> MatchesShownSearch(rentas[i], term))
  {
    var code := SpotCode(rentas[i].spot);
    IncludesBounds(Lower(code), Lower(code));
    IncludesIgnoringCaseOfTerm(code, code);
  }

  const Pagado := "Pagado"
  const Pendiente := "Pendiente"

  predicate IsPagada(r: Renta) { r.estatusPago == Pagado }
  predicate IsPendiente(r: Renta) { r.estatusPago == Pendiente }

  /** `!renta.fecha_fin`: no end date, or an empty one. */
  predicate IsActive(r: Renta) { r.fechaFin.None? || r.fechaFin.value == "" }

  /** The statistics cards. */
  datatype Stats = Stats(total: nat, pagadas: nat, pendientes: nat, activas: nat)

  /** The cards over the whole (unfiltered) list: every rental, the paid
      ones, the pending ones, and those without an end date. A rental is
      never both paid and pending, so those two cards never add up to more
      than the total. */
  function ComputeStats(rentas: seq<Renta>): (s: Stats)
    ensures s.total == |rentas|
    ensures s.pagadas + s.pendientes <= s.total
    ensures s.activas <= s.total
    ensures s.pagadas == |Filter(rentas, IsPagada)| && s.pendientes == |Filter(rentas, IsPendiente)|
    ensures s.activas == |Filter(rentas, IsActive)|
  {
    CountDisjoint(rentas, IsPagada, IsPendiente);
    Stats(|rentas|, Count(rentas, IsPagada), Count(rentas, IsPendiente), Count(rentas, IsActive))
  }

  /** The cards of two lists together are the sums of their cards. */
  lemma StatsAppend(a: seq<Renta>, b: seq<Renta>)
    ensures ComputeStats(a + b).pagadas == ComputeStats(a).pagadas + ComputeStats(b).pagadas
    ensures ComputeStats(a + b).pendientes == ComputeStats(a).pendientes + ComputeStats(b).pendientes
    ensures ComputeStats(a + b).activas == ComputeStats(a).activas + ComputeStats(b).activas
  {
    FilterAppend(a, b, IsPagada);
    FilterAppend(a, b, IsPendiente);
    FilterAppend(a, b, IsActive);
  }

  /** Every rental is counted as paid, as pending, or by neither card, so
      the totals match exactly when nothing has another status. */
  lemma {:induction false} StatsCoverKnownStatuses(rentas: seq<Renta>)
    requires forall i :: 0 <= i < |rentas| ==> rentas[i].estatusPago in {Pagado, Pendiente}
    ensures ComputeStats(rentas).pagadas + ComputeStats(rentas).pendientes == |rentas|
  {
    if |rentas| > 0 {
      StatsCoverKnownStatuses(rentas[1..]);
      CountCons(rentas, IsPagada);
      CountCons(rentas, IsPendiente);
    }
  }

  /** A badge's background and text classes. */
  datatype Colors = Colors(bg: string, text: string)

  const NeutralColors := Colors("bg-neutral-100", "text-neutral-700")

  /** `ESTATUS_PAGO_COLORS` (`utils/constants.js`). */
  const EstatusPagoColors: map<string, Colors> := map[
    Pagado := Colors("bg-success-100", "text-success-700"),
    Pendiente := Colors("bg-warning-100", "text-warning-700")]

  /** `getStatusColor(status)`: the status's colours, neutral for any other
      status. */
  function StatusColor(status: string): (c: Colors)
    ensures status in EstatusPagoColors ==> c == EstatusPagoColors[status]
    ensures status !in EstatusPagoColors ==> c == NeutralColors
  {
    if status in EstatusPagoColors then EstatusPagoColors[status] else NeutralColors
  }

  /** The three badges look different, and only the two known statuses get
      a colour of their own. */
  lemma StatusColorsDistinct(status: string)
    ensures StatusColor(Pagado) != StatusColor(Pendiente)
    ensures StatusColor(Pagado) != NeutralColors && StatusColor(Pendiente) != NeutralColors
    ensures StatusColor(status) == NeutralColors <==> status != Pagado && status != Pendiente
  {
  }

  /** The actions a row offers. */
  datatype RowActions = RowActions(finalizar: bool, editar: bool, eliminar: bool)

  /** A row always offers editing and deleting; "Finalizar" only while the
      rental has no end date. */
  function Actions(r: Renta): (a: RowActions)
    ensures a.editar && a.eliminar
    ensures a.finalizar <==> r.fechaFin.None? || r.fechaFin.value == ""
  {
    RowActions(IsActive(r), true, true)
  }

  /** The rows offering "Finalizar" are exactly the ones the "Activas" card
      counts. */
  lemma {:induction false} FinalizarMatchesActivas(rentas: seq<Renta>)
    ensures |Filter(rentas, (r: Renta) => Actions(r).finalizar)| == ComputeStats(rentas).activas
  {
    if |rentas| > 0 {
      FinalizarMatchesActivas(rentas[1..]);
    }
  }

  /** The rental form. Blank fields are empty strings. */
  datatype Form = Form(idUsuario: string, idSpot: string, fechaInicio: string, fechaFin: string, metodoPago: string, observaciones: string)

  /** The amount-calculation request: spot, start date and end date (`null`
      when blank). */
  datatype CalcRequest = CalcRequest(idSpot: string, fechaInicio: string, fechaFin: Option<string>)

  /** `handleCalcMonto`'s guard: without a start date no request is made
      (the user is told to enter one); otherwise the request carries the
      form's spot and dates. */
  function CalcMonto(f: Form): (r: Option<CalcRequest>)
    ensures r.None? <==> f.fechaInicio == ""
    ensures r.Some? ==> r.value.idSpot == f.idSpot && r.value.fechaInicio == f.fechaInicio
    ensures r.Some? ==> (r.value.fechaFin.None? <==> f.fechaFin == "")
    ensures r.Some? && f.fechaFin != "" ==> r.value.fechaFin == Some(f.fechaFin)
  {
    if f.fechaInicio == "" then None
    else Some(CalcRequest(f.idSpot, f.fechaInicio, if f.fechaFin == "" then None else Some(f.fechaFin)))
  }

  /** The modal's park selector and the form; empty text is no selection. */
  datatype Modal = Modal(selectedPark: string, form: Form)

  /** Choosing a park: the park becomes selected, the chosen spot is
      cleared (it belonged to the old park), and the available spots of the
      new park are requested when one is chosen (the effect on
      `selectedPark`). Nothing else in the form changes. */
  function ChangePark(m: Modal, park: string): (r: (Modal, Option<string>))
    ensures r.0.selectedPark == park
    ensures r.0.form.idSpot == ""
    ensures r.0.form == m.form.(idSpot := "")
    ensures r.1.Some? <==> park != ""
    ensures r.1.Some? ==> r.1.value == park
  {
    (Modal(park, m.form.(idSpot := "")), if park == "" then None else Some(park))
  }

  /** A calculation asked for right after a park change carries no spot:
      the change clears the spot, and the guard looks only at the start
      date, so the request goes out with an empty `id_spot`. */
  lemma CalcAfterParkChange(m: Modal, park: string)
    ensures CalcMonto(ChangePark(m, park).0.form).None? <==> m.form.fechaInicio == ""
    ensures m.form.fechaInicio != "" ==>
      CalcMonto(ChangePark(m, park).0.form) ==
      Some(CalcRequest("", m.form.fechaInicio, if m.form.fechaFin == "" then None else Some(m.form.fechaFin)))
  {
  }

  /** Choosing a park twice is the same as choosing it once, and the last
      choice wins. */
  lemma ChangeParkSettles(m: Modal, p: string, q: string)
    ensures ChangePark(ChangePark(m, p).0, p).0 == ChangePark(m, p).0
    ensures ChangePark(ChangePark(m, p).0, q).0 == ChangePark(m, q).0
  {
  }
}

=== FILE: rv_parks.dfy ===
/** The RV-park page (`pages/RvParks.jsx`): the preview of the spot codes a
    new park would get, the effect that keeps the preview in step with the
    form, the payload sent on submit, and the list's search. */
module RvParks {
  import opened Common
  import opened Text

  /** A decimal digit. */
  type Digit = d: int | 0 <= d <= 9

  /** The value of a run of decimal digits, most significant first. */
  function DigitsValue(ds: seq<Digit>): nat {
    if |ds| == 0 then 0 else DigitsValue(ds[..|ds| - 1]) * 10 + ds[|ds| - 1]
  }

  function Pow10(k: nat): (r: nat)
    ensures r >= 1
  {
    if k == 0 then 1 else 10 * Pow10(k - 1)
  }

  /** The digits written out. */
  function DigitsText(ds: seq<Digit>): (r: string)
    ensures |r| == |ds|
    ensures forall i :: 0 <= i < |ds| ==> r[i] == DigitChar(ds[i])
  {
    seq(|ds|, i requires 0 <= i < |ds| => DigitChar(ds[i]))
  }

  /** An exponent: its sign and digits. Whether it is written `e` or `E`,
      and with or without `+`, changes neither reading below, so that is
      not recorded. */
  datatype Exponent = Exponent(negative: bool, digits: seq<Digit>)

  /** A valid floating-point number in the sense of the HTML standard, the
      only non-blank text a number input reports: an optional minus, the
      integer digits, the fraction digits after a dot (no dot when there
      are none), and an optional exponent. */
  datatype NumberText = NumberText(negative: bool, whole: seq<Digit>, fraction: seq<Digit>, exponent: Option<Exponent>)

  /** The "cantidad de spots" box: `e.target.value`, blank (the empty
      string, also what the input reports for text that is not a valid
      number) or a number as typed. */
  datatype Quantity = Blank | Typed(text: NumberText)

  /** At least one digit before or after the dot, and at least one in an
      exponent. */
  predicate WellFormed(q: Quantity) {
    q.Typed? ==>
      && |q.text.whole| + |q.text.fraction| >= 1
      && (q.text.exponent.Some? ==> |q.text.exponent.value.digits| >= 1)
  }

  function SignText(negative: bool): string {
    if negative then "-" else ""
  }

  /** The text the box holds. */
  function Render(q: Quantity): string {
    match q
    case Blank => ""
    case Typed(t) =>
      SignText(t.negative) + DigitsText(t.whole)
      + (if |t.fraction| == 0 then "" else "." + DigitsText(t.fraction))
      + (match t.exponent
         case None => ""
         case Some(e) => "e" + SignText(e.negative) + DigitsText(e.digits))
  }

  /** All the digits of the text, dot removed: its value is this times
      `10^(exponent - |fraction|)`, signed. */
  function Mantissa(t: NumberText): nat {
    DigitsValue(t.whole + t.fraction)
  }

  /** The form starts with the number 150, which every reading below treats
      as the text `150`. */
  const DefaultQuantity: Quantity := Typed(NumberText(false, [1, 5, 0], [], None))

  /** `formData.cantidad_spots > 0`: the text converted to a number. A blank
      box converts to 0, and the sign and the digits decide the rest: the
      exponent only scales the value. */
  predicate Positive(q: Quantity) {
    q.Typed? && !q.text.negative && Mantissa(q.text) > 0
  }

  /** `parseInt(cantidad_spots)`: the sign and the run of digits at the
      start of the text; `NaN` (`None`) when no digit follows the sign, as
      for a blank box or `.5`. A fraction and an exponent are not read, so
      `1e3` gives 1. */
  function ParseInt(q: Quantity): (r: Option<int>)
    requires WellFormed(q)
    ensures r.None? <==> q.Blank? || |q.text.whole| == 0
    ensures r.Some? ==>
      var n := |SignText(q.text.negative)| + |q.text.whole|;
      && n <= |Render(q)|
      && Render(q)[..n] == SignText(q.text.negative) + DigitsText(q.text.whole)
      && (n < |Render(q)| ==> !IsDigit(Render(q)[n]))
    ensures q.Typed? && r.None? ==> !IsDigit(Render(q)[|SignText(q.text.negative)|])
    ensures r.Some? ==> Abs(r.value) == DigitsValue(q.text.whole) && (r.value < 0 <==> q.text.negative && r.value != 0)
  {
    match q
    case Blank => None
    case Typed(t) =>
      RenderParts(t);
      if |t.whole| == 0 then None
      else Some(if t.negative then -(DigitsValue(t.whole) as int) else DigitsValue(t.whole))
  }

  /** The text starts with the sign and the integer digits, and what comes
      next, if anything, is the dot or the exponent's `e`. */
  lemma RenderParts(t: NumberText)
    requires WellFormed(Typed(t))
    ensures var n := |SignText(t.negative)| + |t.whole|;
      && n <= |Render(Typed(t))|
      && Render(Typed(t))[..n] == SignText(t.negative) + DigitsText(t.whole)
      && (n < |Render(Typed(t))| ==> Render(Typed(t))[n] in {'.', 'e'})
      && (|t.whole| == 0 ==> Render(Typed(t))[n] == '.')
  {
    var head := SignText(t.negative) + DigitsText(t.whole);
    var frac := if |t.fraction| == 0 then "" else "." + DigitsText(t.fraction);
    var exp := match t.exponent
      case None => ""
      case Some(e) => "e" + SignText(e.negative) + DigitsText(e.digits);
    assert Render(Typed(t)) == head + frac + exp;
    assert (head + frac + exp)[..|head|] == head;
    if |head| < |head + frac + exp| {
      if |frac| > 0 {
        assert (head + frac + exp)[|head|] == frac[0] == '.';
      } else {
        assert (head + frac + exp)[|head|] == exp[0] == 'e';
      }
    }
  }

  /** A quantity `parseInt` reads as positive also passes the effect's
      `> 0` test. */
  lemma ParsedPositive(q: Quantity)
    requires WellFormed(q) && ParseInt(q).Some? && ParseInt(q).value > 0
    ensures Positive(q)
  {
    DigitsValueAppend(q.text.whole, q.text.fraction);
    ScaleAtLeast(DigitsValue(q.text.whole), Pow10(|q.text.fraction|));
  }

  lemma ScaleAtLeast(a: nat, b: nat)
    requires b >= 1
    ensures a * b >= a
  {
  }

  function Abs(x: int): nat { if x < 0 then -x else x }

  /** Digits written after others scale the others' value. */
  lemma {:induction false} DigitsValueAppend(a: seq<Digit>, b: seq<Digit>)
    ensures DigitsValue(a + b) == DigitsValue(a) * Pow10(|b|) + DigitsValue(b)
    ensures DigitsValue(b) < Pow10(|b|)
  {
    if |b| > 0 {
      var b' := b[..|b| - 1];
      DigitsValueAppend(a, b');
      assert (a + b)[..|a + b| - 1] == a + b';
      calc {
        DigitsValue(a + b);
        DigitsValue(a + b') * 10 + b[|b| - 1];
        (DigitsValue(a) * Pow10(|b'|) + DigitsValue(b')) * 10 + b[|b| - 1];
        { ScaleByTen(DigitsValue(a), Pow10(|b'|)); }
        DigitsValue(a) * Pow10(|b|) + DigitsValue(b);
      }
    } else {
      assert a + b == a;
    }
  }

  lemma ScaleByTen(x: int, y: int)
    ensures (x * y) * 10 == x * (10 * y)
  {
  }

  /** Without an exponent, `parseInt` is the number's value truncated
      toward zero: the whole part of `whole.fraction`. */
  lemma ParseIntTruncates(q: Quantity)
    requires WellFormed(q) && q.Typed? && q.text.exponent.None? && |q.text.whole| > 0
    ensures var scale := Pow10(|q.text.fraction|);
      Abs(ParseInt(q).value) * scale <= Mantissa(q.text) < (Abs(ParseInt(q).value) + 1) * scale
  {
    DigitsValueAppend(q.text.whole, q.text.fraction);
  }

  /** The letters spot codes run through. */
  const Letters := "ABCDEFGHIJKLMNOPQRSTUVWXYZ"

  /** Spot numbers run from 1 to this, then the next letter starts. */
  const NumbersPerLetter := 99

  /** The most codes the preview lists. */
  const PreviewLimit := 10

  /** The largest quantity the preview accepts. */
  const MaxQuantity := 500

  /** `letras[k]` in a template literal: the letter, or the text `undefined`
      past `Z`. */
  function LetterAt(k: nat): (r: string)
    ensures k < |Letters| ==> r == [Letters[k]] && IsUpperLetter(r[0])
  {
    if k < |Letters| then [Letters[k]] else "undefined"
  }

  function DigitChar(d: int): (c: char)
    requires 0 <= d <= 9
    ensures IsDigit(c)
  {
    (48 + d) as char
  }

  function DigitValue(c: char): int
    requires IsDigit(c)
  {
    c as int - 48
  }

  /** `n.toString().padStart(2, '0')` for a spot number. */
  function Pad2(n: int): (r: string)
    requires 1 <= n <= NumbersPerLetter
    ensures |r| == 2 && IsDigit(r[0]) && IsDigit(r[1])
    ensures 10 * DigitValue(r[0]) + DigitValue(r[1]) == n
  {
    [DigitChar(n / 10), DigitChar(n % 10)]
  }

  /** The code of the `i`-th spot (from 0): its letter, then its number
      within the letter. */
  function CodeAt(i: nat): string {
    LetterAt(i / NumbersPerLetter) + Pad2(i % NumbersPerLetter + 1)
  }

  /** Reading a code back to its position: a letter and two digits making a
      number from 1 to 99. */
  function ParseCode(code: string): (r: Option<nat>)
    ensures r.Some? ==> r.value < |Letters| * NumbersPerLetter
  {
    if |code| == 3 && IsUpperLetter(code[0]) && IsDigit(code[1]) && IsDigit(code[2]) then
      var n := 10 * DigitValue(code[1]) + DigitValue(code[2]);
      if 1 <= n then Some((code[0] as int - 'A' as int) * NumbersPerLetter + n - 1) else None
    else None
  }

  /** Every code the scheme can write before running out of letters reads
      back to its position. */
  lemma CodeRoundTrip(i: nat)
    requires i < |Letters| * NumbersPerLetter
    ensures |CodeAt(i)| == 3
    ensures ParseCode(CodeAt(i)) == Some(i)
  {
    var k := i / NumbersPerLetter;
    var code := CodeAt(i);
    assert code[0] == Letters[k];
    assert Letters[k] as int - 'A' as int == k;
    assert code[1..] == Pad2(i % NumbersPerLetter + 1);
  }

  /** Hence those codes are all different. */
  lemma CodesDistinct(i: nat, j: nat)
    requires i < |Letters| * NumbersPerLetter && j < |Letters| * NumbersPerLetter && i != j
    ensures CodeAt(i) != CodeAt(j)
  {
    CodeRoundTrip(i);
    CodeRoundTrip(j);
  }

  /** Past `Z99` the letter is `undefined` and the codes start to repeat. */
  lemma CodesRepeatPastZ()
    ensures CodeAt(|Letters| * NumbersPerLetter) == CodeAt(|Letters| * NumbersPerLetter + NumbersPerLetter)
    ensures CodeAt(|Letters| * NumbersPerLetter) == "undefined01"
  {
    assert Pad2(1) == "01";
    assert CodeAt(0) == "A01";
    assert Codes(1) == ["A01"];
  }

  /** The first `count` codes. */
  function Codes(count: nat): (r: seq<string>)
    ensures |r| == count
    ensures forall i :: 0 <= i < count ==> r[i] == CodeAt(i)
  {
    seq(count, i requires 0 <= i => CodeAt(i))
  }

  /** The loop of `generatePreview`: a letter index and a number that
      restarts at 1 and moves to the next letter after 99. It writes the
      codes of the first `count` positions. */
  method GenerateCodes(count: int) returns (codes: seq<string>)
    ensures codes == Codes(Max(0, count))
  {
    codes := [];
    var letraIndex := 0;
    var numero := 1;
    var i := 0;
    while i < count
      invariant 0 <= i <= Max(0, count)
      invariant 1 <= numero <= NumbersPerLetter && 0 <= letraIndex
      invariant i == letraIndex * NumbersPerLetter + numero - 1
      invariant codes == Codes(i)
    {
      CodesStep(letraIndex, numero);
      codes := codes + [LetterAt(letraIndex) + Pad2(numero)];
      numero := numero + 1;
      if numero > NumbersPerLetter {
        numero := 1;
        letraIndex := letraIndex + 1;
      }
      i := i + 1;
    }
  }

  /** One turn of that loop: the code of the `numero`-th number of letter
      `letraIndex` extends the codes written so far by one. */
  lemma CodesStep(letraIndex: nat, numero: int)
    requires 1 <= numero <= NumbersPerLetter
    ensures var i := letraIndex * NumbersPerLetter + numero - 1;
      i >= 0 && Codes(i) + [LetterAt(letraIndex) + Pad2(numero)] == Codes(i + 1)
  {
    var i := letraIndex * NumbersPerLetter + numero - 1;
    assert i / NumbersPerLetter == letraIndex && i % NumbersPerLetter == numero - 1;
    assert CodeAt(i) == LetterAt(letraIndex) + Pad2(numero);
  }

  /** `generatePreview()`: the preview is left as it was when the quantity
      does not parse to a number from 1 to 500; otherwise it is the codes of
      the first ten spots at most. */
  function GeneratePreview(q: Quantity, previous: seq<string>): (r: seq<string>)
    requires WellFormed(q)
    ensures (ParseInt(q).None? || ParseInt(q).value <= 0 || ParseInt(q).value > MaxQuantity) ==> r == previous
    ensures ParseInt(q).Some? && 1 <= ParseInt(q).value <= MaxQuantity ==>
      |r| == Min(ParseInt(q).value, PreviewLimit) && forall i :: 0 <= i < |r| ==> r[i] == CodeAt(i)
  {
    var c := ParseInt(q);
    if c.None? || c.value <= 0 || c.value > MaxQuantity then previous
    else Codes(Min(c.value, PreviewLimit))
  }

  /** The effect on `generar_spots` and `cantidad_spots`: with generation on
      and a positive quantity the preview is regenerated, otherwise it is
      emptied. */
  function PreviewEffect(generar: bool, q: Quantity, previous: seq<string>): (r: seq<string>)
    requires WellFormed(q)
    ensures !generar || !Positive(q) ==> r == []
    ensures generar && Positive(q) ==> r == GeneratePreview(q, previous)
  {
    if generar && Positive(q) then GeneratePreview(q, previous) else []
  }

  /** The preview never reaches the second letter: it lists `A01`, `A02`,
      ... up to ten codes. */
  lemma PreviewUsesFirstLetter(generar: bool, q: Quantity, previous: seq<string>)
    requires WellFormed(q)
    requires generar && ParseInt(q).Some? && 1 <= ParseInt(q).value <= MaxQuantity
    ensures var r := PreviewEffect(generar, q, previous);
      |r| == Min(ParseInt(q).value, PreviewLimit) &&
      forall i :: 0 <= i < |r| ==> r[i] == ['A'] + Pad2(i + 1)
  {
    ParsedPositive(q);
    var r := PreviewEffect(generar, q, previous);
    assert r == Codes(Min(ParseInt(q).value, PreviewLimit));
    forall i | 0 <= i < |r|
      ensures r[i] == ['A'] + Pad2(i + 1)
    {
      FirstLetterCode(i);
    }
  }

  lemma FirstLetterCode(i: nat)
    requires i < NumbersPerLetter
    ensures CodeAt(i) == ['A'] + Pad2(i + 1)
  {
    assert i / NumbersPerLetter == 0 && i % NumbersPerLetter == i;
  }

  /** A fractional quantity below one is positive, so the effect asks for a
      preview, but it parses to 0 (`0.5`) or to `NaN` (`.5`) and the
      previous preview stays on screen. */
  lemma FractionKeepsStalePreview(previous: seq<string>)
    ensures var q := Typed(NumberText(false, [0], [5], None));
      Render(q) == "0.5" && Positive(q) && ParseInt(q) == Some(0) && PreviewEffect(true, q, previous) == previous
    ensures var q := Typed(NumberText(false, [], [5], None));
      Render(q) == ".5" && Positive(q) && ParseInt(q).None? && PreviewEffect(true, q, previous) == previous
  {
    var q := Typed(NumberText(false, [0], [5], None));
    assert DigitsText([0]) == "0" && DigitsText([5]) == "5";
    assert Mantissa(q.text) == 5 by {
      assert q.text.whole + q.text.fraction == [0, 5];
      assert [0, 5][..1] == [0] && [0][..0] == [];
    }
    var q' := Typed(NumberText(false, [], [5], None));
    assert Mantissa(q'.text) == 5 by {
      assert q'.text.whole + q'.text.fraction == [5];
      assert [5][..0] == [];
    }
  }

  /** An exponent entry is read by its leading digits only. `1e3` stands
      for 1000, over the 500 the box allows, yet the preview shows `A01`
      (the browser's own range check only stops the submit). `2e2` stands
      for 200, which the box accepts, yet the preview shows two codes and
      the payload asks for two spots. */
  lemma ExponentReadAsLeadingDigits(previous: seq<string>, f: Form)
    requires f.cantidadSpots == Typed(NumberText(false, [2], [], Some(Exponent(false, [2])))) && f.generarSpots
    ensures var q := Typed(NumberText(false, [1], [], Some(Exponent(false, [3]))));
      && Render(q) == "1e3"
      && Mantissa(q.text) * Pow10(3) == 1000 > MaxQuantity
      && ParseInt(q) == Some(1)
      && PreviewEffect(true, q, previous) == ["A01"]
    ensures Render(f.cantidadSpots) == "2e2"
    ensures Mantissa(f.cantidadSpots.text) * Pow10(2) == 200 <= MaxQuantity
    ensures ParseInt(f.cantidadSpots) == Some(2)
    ensures PreviewEffect(true, f.cantidadSpots, previous) == ["A01", "A02"]
    ensures Payload(f).generation == Some(Generation(Some(2)))
  {
    var q := Typed(NumberText(false, [1], [], Some(Exponent(false, [3]))));
    assert DigitsText([1]) == "1" && DigitsText([3]) == "3" && DigitsText([2]) == "2";
    assert Mantissa(q.text) == 1 by {
      assert q.text.whole + q.text.fraction == [1];
      assert [1][..0] == [];
    }
    var g := f.cantidadSpots;
    assert Mantissa(g.text) == 2 by {
      assert g.text.whole + g.text.fraction == [2];
      assert [2][..0] == [];
    }
    assert Pad2(1) == "01" && Pad2(2) == "02";
    assert CodeAt(0) == "A01" && CodeAt(1) == "A02";
    assert Codes(1) == ["A01"];
    assert Codes(2) == ["A01", "A02"];
  }

  /** The RV-park form. */
  datatype Form = Form(nombre: string, direccion: string, telefono: string, email: string, generarSpots: bool, cantidadSpots: Quantity)

  function BlankForm(): Form {
    Form("", "", "", "", false, DefaultQuantity)
  }

  /** The generation request added to the payload; a quantity that does not
      parse is sent as `null` (`None`). */
  datatype Generation = Generation(cantidad: Option<int>)

  datatype Body = Body(nombre: string, direccion: string, telefono: string, email: string, generation: Option<Generation>)

  datatype Request = Create(body: Body) | Update(id: int, body: Body)

  /** `handleSubmit`'s payload: the four text fields trimmed, and the
      generation fields present only when generation is switched on. */
  function Payload(f: Form): (b: Body)
    requires WellFormed(f.cantidadSpots)
    ensures b.nombre == Trim(f.nombre) && b.direccion == Trim(f.direccion)
    ensures b.telefono == Trim(f.telefono) && b.email == Trim(f.email)
    ensures b.generation.Some? <==> f.generarSpots
    ensures b.generation.Some? ==> b.generation.value.cantidad == ParseInt(f.cantidadSpots)
  {
    Body(Trim(f.nombre), Trim(f.direccion), Trim(f.telefono), Trim(f.email),
         if f.generarSpots then Some(Generation(ParseInt(f.cantidadSpots))) else None)
  }

  /** `handleSubmit`: an update of the park in edit, else a creation. */
  function Submit(f: Form, editing: Option<int>): (r: Request)
    requires WellFormed(f.cantidadSpots)
    ensures r.body == Payload(f)
    ensures r.Update? <==> editing.Some?
    ensures r.Update? ==> r.id == editing.value
  {
    match editing
    case Some(id) => Update(id, Payload(f))
    case None => Create(Payload(f))
  }

  /** A park as listed; missing text fields are `None`. */
  datatype RvPark = RvPark(idRvPark: int, nombre: Option<string>, direccion: Option<string>, telefono: Option<string>, email: Option<string>)

  /** `handleEdit(rvPark)`: the park's fields (missing ones blank) with
      generation off and the default quantity. */
  function EditForm(p: RvPark): (f: Form)
    ensures !f.generarSpots && f.cantidadSpots == DefaultQuantity
  {
    Form(p.nombre.GetOr(""), p.direccion.GetOr(""), p.telefono.GetOr(""), p.email.GetOr(""), false, DefaultQuantity)
  }

  /** Saving an edited park without touching the form sends its fields
      trimmed and never asks for new spots; saving it again sends the same
      text. */
  lemma EditRoundTrip(p: RvPark)
    ensures var b := Submit(EditForm(p), Some(p.idRvPark)).body;
      && b.generation.None?
      && b.nombre == Trim(p.nombre.GetOr(""))
      && Trim(b.nombre) == b.nombre && Trim(b.direccion) == b.direccion
      && Trim(b.telefono) == b.telefono && Trim(b.email) == b.email
  {
    TrimIdempotent(p.nombre.GetOr(""));
    TrimIdempotent(p.direccion.GetOr(""));
    TrimIdempotent(p.telefono.GetOr(""));
    TrimIdempotent(p.email.GetOr(""));
  }

  /** `filteredRvParks`: the name or the address contains the term ignoring
      case; a missing field matches nothing. */
  predicate MatchesSearch(p: RvPark, term: string) {
    || (p.nombre.Some? && IncludesIgnoringCase(p.nombre.value, term))
    || (p.direccion.Some? && IncludesIgnoringCase(p.direccion.value, term))
  }

  function FilterRvParks(parks: seq<RvPark>, term: string): (r: seq<RvPark>)
    ensures forall i :: 0 <= i < |r| ==> r[i] in parks && MatchesSearch(r[i], term)
    ensures forall i :: 0 <= i < |parks| && MatchesSearch(parks[i], term) ==> parks[i] in r
  {
    Filter(parks, (p: RvPark) => MatchesSearch(p, term))
  }

  /** With an empty search a park is listed exactly when it has a name or an
      address: one with neither is hidden. */
  lemma EmptySearchNeedsNameOrAddress(p: RvPark)
    ensures MatchesSearch(p, "") <==> p.nombre.Some? || p.direccion.Some?
  {
    if p.nombre.Some? {
      IncludesEmpty(Lower(p.nombre.value));
    }
    if p.direccion.Some? {
      IncludesEmpty(Lower(p.direccion.value));
    }
  }
}

=== FILE: text.dfy ===
/** The JavaScript string operations the pages rely on: `toLowerCase` and
    `toUpperCase` (restricted to ASCII letters), `trim` and the regular
    expression class `\s`, `split` on one character, `includes`, and the
    default `Array.prototype.sort` order on strings. */
module Text {

  /** The characters JavaScript's `\s` class and `String.prototype.trim`
      treat as white space (WhiteSpace and LineTerminator of ECMA-262). */
  predicate IsSpace(c: char) {
    || ('\t' <= c <= '\r')
    || c == ' '
    || c == '\U{00A0}'
    || c == '\U{1680}'
    || ('\U{2000}' <= c <= '\U{200A}')
    || c == '\U{2028}'
    || c == '\U{2029}'
    || c == '\U{202F}'
    || c == '\U{205F}'
    || c == '\U{3000}'
    || c == '\U{FEFF}'
  }

  predicate IsDigit(c: char) { '0' <= c <= '9' }

  predicate IsUpperLetter(c: char) { 'A' <= c <= 'Z' }

  predicate IsLowerLetter(c: char) { 'a' <= c <= 'z' }

  function LowerChar(c: char): (r: char)
    ensures !IsUpperLetter(r)
    ensures IsUpperLetter(c) ==> IsLowerLetter(r)
    ensures !IsUpperLetter(c) ==> r == c
  {
    if IsUpperLetter(c) then (c as int + 32) as char else c
  }

  function UpperChar(c: char): (r: char)
    ensures !IsLowerLetter(r)
    ensures IsLowerLetter(c) ==> IsUpperLetter(r)
    ensures !IsLowerLetter(c) ==> r == c
  {
    if IsLowerLetter(c) then (c as int - 32) as char else c
  }

  /** `s.toLowerCase()` on ASCII letters. */
  function Lower(s: string): (r: string)
    ensures |r| == |s|
    ensures forall i :: 0 <= i < |s| ==> r[i] == LowerChar(s[i])
  {
    seq(|s|, i requires 0 <= i < |s| => LowerChar(s[i]))
  }

  /** `s.toUpperCase()` on ASCII letters. */
  function Upper(s: string): (r: string)
    ensures |r| == |s|
    ensures forall i :: 0 <= i < |s| ==> r[i] == UpperChar(s[i])
  {
    seq(|s|, i requires 0 <= i < |s| => UpperChar(s[i]))
  }

  /** Lower-casing is idempotent and forgets the original case: a string and
      its upper-cased form lower-case to the same text. */
  lemma LowerIdempotent(s: string)
    ensures Lower(Lower(s)) == Lower(s)
    ensures Lower(Upper(s)) == Lower(s)
  {
    assert forall i :: 0 <= i < |s| ==> Lower(Upper(s))[i] == Lower(s)[i];
  }

  lemma UpperIdempotent(s: string)
    ensures Upper(Upper(s)) == Upper(s)
  {
  }

  /** `hay.includes(needle)`: `needle` occurs as a contiguous block of `hay`. */
  predicate Includes(hay: string, needle: string) {
    exists i :: 0 <= i <= |hay| - |needle| && OccursAt(hay, needle, i)
  }

  /** `needle` is the block of `hay` that starts at index `i`. */
  predicate OccursAt(hay: string, needle: string, i: int) {
    0 <= i <= |hay| - |needle| && hay[i..i + |needle|] == needle
  }

  /** Every string includes the empty string, which is why an empty search
      box keeps every row whose searched field is a string. */
  lemma IncludesEmpty(hay: string)
    ensures Includes(hay, "")
  {
    assert OccursAt(hay, "", 0);
  }

  /** A string includes itself and a longer needle is never included. */
  lemma IncludesBounds(hay: string, needle: string)
    ensures Includes(hay, hay)
    ensures |needle| > |hay| ==> !Includes(hay, needle)
  {
    assert OccursAt(hay, hay, 0);
  }

  /** Case-insensitive `includes`: both sides lower-cased, as the search
      boxes do with `a.toLowerCase().includes(term.toLowerCase())`. */
  predicate IncludesIgnoringCase(hay: string, needle: string) {
    Includes(Lower(hay), Lower(needle))
  }

  /** The case-insensitive search does not depend on the case of the term. */
  lemma IncludesIgnoringCaseOfTerm(hay: string, term: string)
    ensures IncludesIgnoringCase(hay, Upper(term)) == IncludesIgnoringCase(hay, term)
    ensures IncludesIgnoringCase(hay, Lower(term)) == IncludesIgnoringCase(hay, term)
  {
    LowerIdempotent(term);
  }

  /** `s.trimStart()` */
  function TrimStart(s: string): (r: string)
    ensures |r| <= |s|
    ensures r == s[|s| - |r|..]
    ensures forall i :: 0 <= i < |s| - |r| ==> IsSpace(s[i])
    ensures |r| > 0 ==> !IsSpace(r[0])
  {
    if |s| > 0 && IsSpace(s[0]) then TrimStart(s[1..]) else s
  }

  /** `s.trimEnd()` */
  function TrimEnd(s: string): (r: string)
    ensures |r| <= |s|
    ensures r == s[..|r|]
    ensures forall i :: |r| <= i < |s| ==> IsSpace(s[i])
    ensures |r| > 0 ==> !IsSpace(r[|r| - 1])
  {
    if |s| > 0 && IsSpace(s[|s| - 1]) then TrimEnd(s[..|s| - 1]) else s
  }

  /** `s.trim()`: the block of `s` left after removing white space from both
      ends; everything removed is white space and the result neither starts
      nor ends with it. */
  function Trim(s: string): (r: string)
    ensures |r| <= |s|
    ensures exists a :: OccursAt(s, r, a)
    ensures |r| > 0 ==> !IsSpace(r[0]) && !IsSpace(r[|r| - 1])
    ensures r == "" <==> forall i :: 0 <= i < |s| ==> IsSpace(s[i])
  {
    TrimFacts(s);
    TrimEmptyIffBlank(s);
    TrimEnd(TrimStart(s))
  }

  lemma TrimFacts(s: string)
    ensures exists a :: OccursAt(s, TrimEnd(TrimStart(s)), a)
  {
    var t := TrimStart(s);
    var r := TrimEnd(t);
    var a := |s| - |t|;
    assert t == s[a..];
    assert r == t[..|r|];
    assert |r| <= |t|;
    assert forall k :: 0 <= k < |r| ==> r[k] == s[a + k];
    assert s[a..a + |r|] == r;
    assert OccursAt(s, r, a);
  }

  lemma TrimEmptyIffBlank(s: string)
    ensures TrimEnd(TrimStart(s)) == "" <==> forall i :: 0 <= i < |s| ==> IsSpace(s[i])
  {
    var t := TrimStart(s);
    var a := |s| - |t|;
    if TrimEnd(t) != "" {
      assert t[0] == s[a];
    }
  }

  /** Trimming twice is the same as trimming once. */
  lemma TrimIdempotent(s: string)
    ensures Trim(Trim(s)) == Trim(s)
  {
    var r := Trim(s);
    if |r| > 0 {
      assert TrimStart(r) == r;
      assert TrimEnd(r) == r;
    }
  }

  /** `s.split(sep)` for a one-character separator: never empty, and no part
      contains the separator. */
  function Split(s: string, sep: char): (parts: seq<string>)
    ensures |parts| >= 1
    ensures forall k :: 0 <= k < |parts| ==> sep !in parts[k]
  {
    if |s| == 0 then [""]
    else
      var rest := Split(s[1..], sep);
      if s[0] == sep then [""] + rest
      else [[s[0]] + rest[0]] + rest[1..]
  }

  /** `parts.join(sep)` */
  function Join(parts: seq<string>, sep: char): string
    requires |parts| >= 1
  {
    if |parts| == 1 then parts[0] else parts[0] + [sep] + Join(parts[1..], sep)
  }

  /** Splitting loses nothing: joining the parts back gives the input. */
  lemma {:induction false} SplitJoin(s: string, sep: char)
    ensures Join(Split(s, sep), sep) == s
  {
    if |s| > 0 {
      var rest := Split(s[1..], sep);
      SplitJoin(s[1..], sep);
      if s[0] == sep {
        assert Split(s, sep)[1..] == rest;
      } else {
        var parts := Split(s, sep);
        assert parts[1..] == rest[1..];
        if |rest| == 1 {
          assert Join(parts, sep) == [s[0]] + rest[0];
        } else {
          assert Join(rest, sep) == rest[0] + [sep] + Join(rest[1..], sep);
        }
      }
    }
  }

  /** A string holding the separator splits into two parts or more. */
  lemma {:induction false} SplitWithSeparator(s: string, sep: char)
    requires sep in s
    ensures |Split(s, sep)| >= 2
  {
    if s[0] != sep {
      assert sep in s[1..];
      SplitWithSeparator(s[1..], sep);
    }
  }

  /** A string without the separator splits into itself alone. */
  lemma {:induction false} SplitNoSeparator(s: string, sep: char)
    requires sep !in s
    ensures Split(s, sep) == [s]
  {
    if |s| > 0 {
      assert sep !in s[1..];
      SplitNoSeparator(s[1..], sep);
      assert s == [s[0]] + s[1..];
    }
  }

  /** The order `Array.prototype.sort` uses on strings: lexicographic by
      character, a proper prefix first. */
  predicate Before(a: string, b: string) {
    if |a| == 0 then |b| > 0
    else if |b| == 0 then false
    else a[0] < b[0] || (a[0] == b[0] && Before(a[1..], b[1..]))
  }

  lemma {:induction false} BeforeIrreflexive(a: string)
    ensures !Before(a, a)
  {
    if |a| > 0 {
      BeforeIrreflexive(a[1..]);
    }
  }

  lemma {:induction false} BeforeTransitive(a: string, b: string, c: string)
    requires Before(a, b) && Before(b, c)
    ensures Before(a, c)
  {
    if |a| > 0 && |b| > 0 && |c| > 0 && a[0] == b[0] == c[0] {
      BeforeTransitive(a[1..], b[1..], c[1..]);
    }
  }

  /** Any two different strings are ordered one way or the other. */
  lemma {:induction false} BeforeTotal(a: string, b: string)
    requires a != b
    ensures Before(a, b) || Before(b, a)
  {
    if |a| > 0 && |b| > 0 && a[0] == b[0] {
      assert a == [a[0]] + a[1..] && b == [b[0]] + b[1..];
      BeforeTotal(a[1..], b[1..]);
    }
  }

  lemma {:induction false} BeforeAsymmetric(a: string, b: string)
    requires Before(a, b)
    ensures !Before(b, a)
  {
    if |a| > 0 && |b| > 0 && a[0] == b[0] {
      BeforeAsymmetric(a[1..], b[1..]);
    }
  }
}
